=== FILE: README.md ===
# Alpha: absorption measurement core in Dafny

Alpha measures the acoustic absorption coefficient of a material sample in
an impedance tube. This project models the three stages that carry the
measurement's logic.

- **Signal generation** (`SignalGenerator`).
  - The excitation type is chosen by a case-insensitive name: swept sine,
    low-pass swept sine, maximum length sequence (MLS) or inverse repeat
    sequence (IRS).
  - The signal may be low- or high-pass filtered, and is then scaled by a
    fixed gain of 0.5.
  - With padding on, it is framed as `[0, 1, silence, signal, silence]`.
    The `1` is the synchronisation impulse.
  - The frame is repeated `signal_reps` more times.
  - An MLS is mapped from 0/1 to +1/-1 and repeated. An IRS is the bipolar
    sequence written twice, with every odd-indexed sample negated.
- **Initial analysis** (`Measurement`).
  - Both recorded channels are split into equal segments.
  - The microphone impulse is located in the first segment. It is the first
    sample of the first difference whose magnitude exceeds `impulse constant`
    times the peak of the leading `noise samples` differences.
  - The generator impulse is the first sample of the envelope's first
    difference that exceeds `impulse threshold`.
  - Either locator answers -1 when nothing crosses.
  - The two locations are stored in the measurement settings.
- **Absorption analysis** (`AbsorptionCoefficient`, `Pipeline`).
  - Every segment is cut at its impulse location plus the impulse delay,
    and the segments are averaged.
  - For MLS and IRS, the steady-state periods are then averaged.
  - The system response comes from the MLS system response or from the IRS
    circular correlation.
  - The power cepstrum is the microphone cepstrum minus the generator
    cepstrum.
  - A one- or two-sided Hann-tapered window lifts the impulse response.
  - The absorption coefficient is `1 - |H|^2`.

**Modelling choices.**
- Signals are `seq<real>`.
- Python slices are modelled exactly: negative indices count from the end,
  and bounds are clamped (`Sequences.PyIndex`).
- numpy `reshape(a, (n, -1))` fails unless `n > 0` and `n` divides the
  length.
- The exceptions the model keeps become an `Err` of `Results.Error`:
  `assert(mls_reps > 0)`, an empty `max`, scipy `hilbert` of an empty
  generator segment, an unknown window type (which leaves `self.window`
  unset) and a missing impulse-location key. The other settings are typed
  parameters, so their lookup and conversion failures are not modelled
  (see "Left out").

**External numerics are parameters.** The following are function
parameters or values and are not modelled:
- the MLS database (`getMls`, `getSystemResponse`);
- swept-sine synthesis and the Butterworth filters;
- the Hilbert envelope and the Hann window;
- the cepstrum (`ifft(log(abs(fft(x)) ** 2))`);
- the FFT magnitude used for alpha.

Sample counts computed as `int(seconds * sample_rate)` are passed in as
whole numbers.

**Behaviour of the code worth noting:**
- The MLS and IRS averaging (src/AbsorptionCoefficient.py:163-171,
  :177-187) never checks the period: `reshape(…, (mls_reps, -1))` only needs
  `mls reps` to divide the length of the slice after the first period. A
  recording shorter than `reps + 1` periods is averaged into rows shorter
  than a period without any error
  (`AbsorptionCoefficient.ShortAverageSucceeds`).
- `generateMls` and `generateIRS` emit `mls reps + 2` copies: the initial
  copy plus one per iteration of `range(reps + 1)`
  (src/SignalGenerator.py:252-257, :282-286).
- Padding comes after the gain (src/SignalGenerator.py:94, :97-98), so the
  synchronisation impulse keeps the value 1.0.
- The MLS payload is `±0.5` only if the database's `getMls`
  (src/SignalGenerator.py:248) yields floating-point arrays. With integer
  arrays, `*= 0.5` would truncate (older numpy) or raise (newer numpy). The
  database is not part of this model, which takes the sequence as 0/1
  integers and converts it to reals when it is made bipolar.
- The comment at src/AbsorptionCoefficient.py:139-140 says one sample is
  added for the impulse. The code does not add it, so extraction starts one
  sample before the excitation (`Pipeline.ExtractionStartsOneSampleEarly`).

Seven names src/Measurement.py uses are undefined there; the file imports
only `logging`, `AudioIO` and `SignalGenerator` (src/Measurement.py:6-9):
- `input_signals` and `generator_signals` at src/Measurement.py:70-71;
- `noise_level` and `IMPULSE_THRESHOLD_CONSTANT` at src/Measurement.py:105;
- `reshape` at src/Measurement.py:64-65;
- `r_` at src/Measurement.py:99 and :139;
- `hilbert` at src/Measurement.py:136.

The model reads them as the evident `self.input_signals`,
`self.generator_signals`, the `peak_noise_lvl` just computed, the
`impulse constant` setting, numpy's `reshape` and `r_`, and scipy's
`hilbert`.

## Model

| member | source | states |
|---|---|---|
| SignalGenerator.ParseSignalType | src/SignalGenerator.py:77-85 | A type is selected exactly when the lower-cased name equals that type's name; no selection means no name matches |
| SignalGenerator.ParseTypeName | src/SignalGenerator.py:77-85 | Every signal type is selected by its own name |
| SignalGenerator.ParseIgnoresCase | src/SignalGenerator.py:78-85 | A name and its lower-cased form select the same branch |
| SignalGenerator.Bipolar | src/SignalGenerator.py:248-250 | `-2v + 1` sends 0 to +1 and 1 to -1, so a 0/1 sequence becomes a ±1 sequence |
| SignalGenerator.BipolarRoundTrip | src/SignalGenerator.py:248-250 | The bipolar map is inverted by `(1 - b) / 2`: no information is lost |
| SignalGenerator.MlsSignal | src/SignalGenerator.py:237-257 | The MLS signal is `reps + 2` times the sequence length (one sequence when `reps < -1`) |
| SignalGenerator.MlsSignalPeriodic | src/SignalGenerator.py:248-257 | Sample `i` of the MLS signal is bipolar sample `i mod L`, and a 0/1 sequence gives a ±1 signal |
| SignalGenerator.InverseRepeat | src/SignalGenerator.py:271-280 | Even samples of the IRS are the doubled sequence's samples, odd samples are negated |
| SignalGenerator.InverseRepeatHalves | src/SignalGenerator.py:259-280 | For odd-length sequences (every MLS) the second half of the IRS is the negation of the first |
| SignalGenerator.MlsLengthOdd | src/AbsorptionCoefficient.py:163 | The sequence length `2^taps - 1` is odd whenever there is at least one tap |
| SignalGenerator.MlsInverseRepeatHalves | src/SignalGenerator.py:268-280 | For a sequence of the database's length `2^taps - 1`, the second half of the IRS built from it is the negation of the first |
| SignalGenerator.IrsSignal | src/SignalGenerator.py:259-286 | The IRS signal is `reps + 2` times the IRS length (one IRS when `reps < -1`) |
| SignalGenerator.IrsSignalPeriodic | src/SignalGenerator.py:271-286 | Sample `i` of the IRS signal is IRS sample `i mod 2L` |
| SignalGenerator.GainHalvesEverySample | src/SignalGenerator.py:92-94 | The gain multiplies every sample of the (optionally filtered) signal by exactly 0.5 and changes nothing else |
| SignalGenerator.PadFrame | src/SignalGenerator.py:322-337 | The padded frame is a zero, the unit impulse, `delay` zeros, the signal unchanged, then `padding` zeros |
| SignalGenerator.Assemble | src/SignalGenerator.py:100-103 | The emitted signal is `signal_reps + 1` frames long (one frame when `signal_reps <= 0`) |
| SignalGenerator.GenerateSignal | src/SignalGenerator.py:55-103 | A signal is produced exactly for a recognised type name, and is then the assembled frames of that type |
| SignalGenerator.SyncImpulseInEveryFrame | src/SignalGenerator.py:92-103 | With padding on, frame `k` of the signal starts at `k * P` and has its synchronisation impulse at `k * P + 1` and its gained excitation after the delay |
| SignalGenerator.UnfilteredMlsPayload | src/SignalGenerator.py:82-94 | Unfiltered MLS excitation is the bipolar sequence at half amplitude, every sample ±0.5 |
| Sequences.Reshape | src/Measurement.py:64-66 | Reshaping into `n` rows succeeds exactly when `n > 0` divides the length; the rows have equal length and concatenate back to the input |
| Sequences.ReshapeRow | src/Measurement.py:64-66 | Row `k` of a reshape is the `k`-th block of the input |
| Sequences.PyIndex | src/Measurement.py:102 | A Python slice bound: in-range bounds stay, negative bounds count from the end, and out-of-range bounds clamp to 0 or the length |
| Measurement.Diff | src/Measurement.py:99 | The difference starts with 0 and then holds `s[i] - s[i-1]`; an empty signal gives `[0]` |
| Measurement.IntegrateDiff | src/Measurement.py:99 | Running sums of the difference, from the first sample, give back the signal: the difference loses only the offset |
| Measurement.MaxAbs | src/Measurement.py:102 | The peak bounds every magnitude in the window |
| Measurement.MaxAbsAttained | src/Measurement.py:102 | The peak is the magnitude of some sample in the window |
| Measurement.PeakNoiseLevel | src/Measurement.py:95-102 | The noise level exists exactly when the noise window is non-empty, bounds every sample in it, and is non-negative |
| Measurement.PeakNoiseAttained | src/Measurement.py:102 | The noise level is attained by a sample in the noise window |
| Measurement.FirstMatch | src/Measurement.py:104-110 | The scan answers the first crossing sample at or after `from`, or -1 exactly when none crosses |
| Measurement.LocateSignalImpulse | src/Measurement.py:81-110 | The microphone locator succeeds exactly when the noise window is non-empty, and then answers the first difference whose magnitude exceeds constant × peak noise, or -1 when there is none |
| Measurement.LocateGeneratorImpulse | src/Measurement.py:112-147 | The generator locator answers the first envelope difference above the threshold, or -1 when there is none |
| Measurement.NoiseNeverCrosses | src/Measurement.py:88-91 | With a constant of at least 1, no sample within the peak noise level counts as the impulse |
| Measurement.SilentNoiseCrossing | src/Measurement.py:102-105 | With silent noise, every non-zero difference counts as the impulse |
| Measurement.LocatorsNeverAnswerZero | src/Measurement.py:98-147 | With a non-negative constant and threshold, the leading 0 of the difference never crosses, so neither locator can answer index 0 |
| Measurement.MicrophoneImpulseAfterNoiseWindow | src/Measurement.py:88-107 | With a constant of at least 1, a found microphone impulse lies after the noise window |
| Measurement.MicrophoneFindsCleanStep | src/Measurement.py:95-107 | A signal that is silent up to `k` and steps at `k` is located at `k` when the noise window lies in the silence |
| Measurement.GeneratorFindsCleanStep | src/Measurement.py:134-144 | An envelope that is zero up to `k` and rises above the threshold at `k` is located at `k` |
| Measurement.GeneratorMissesImpulseAtZero | src/Measurement.py:139-147 | An envelope whose only energy is at index 0 is not found: the locator answers -1 |
| Measurement.AnalyseSegments | src/Measurement.py:61-79 | Analysis succeeds exactly when both channels reshape, the noise window is non-empty and the generator recording is non-empty (scipy `hilbert` at src/Measurement.py:136 rejects an empty segment); the segments are the reshapes and the locations come from the first segments only |
| Measurement.OnlyFirstSegmentScanned | src/Measurement.py:68-74 | Recordings that agree on their first segment locate the same impulses |
| Measurement.ReadLocations | src/AbsorptionCoefficient.py:135-149 | Extraction reads both locations exactly when both keys are present, and otherwise names the missing key |
| Measurement.AsWrittenLosesMicrophoneLocation | src/Measurement.py:76-79 | Storing under "input impulse location" leaves the microphone location unreadable |
| Measurement.LocationsRoundTrip | src/Measurement.py:76-79 | Stored under the keys extraction reads, the locations are read back unchanged |
| AbsorptionCoefficient.AlignSegments | src/AbsorptionCoefficient.py:144-154 | Each aligned segment is its segment from the start sample on |
| AbsorptionCoefficient.AverageChannel | src/AbsorptionCoefficient.py:142-156 | The channel average exists exactly when there is a segment, and each sample is the mean of the aligned samples |
| AbsorptionCoefficient.AverageOfIdenticalSegments | src/AbsorptionCoefficient.py:144-147 | Averaging copies of one segment gives that segment from the start sample on |
| AbsorptionCoefficient.AverageIgnoresPreamble | src/AbsorptionCoefficient.py:142-147 | Samples before the start sample do not affect the average |
| AbsorptionCoefficient.SequenceAverage | src/AbsorptionCoefficient.py:158-171 | Non-positive `mls reps` is rejected; otherwise the average succeeds exactly when `mls reps` divides the length of the slice after the first period, and has that length divided by `mls reps` |
| AbsorptionCoefficient.SequenceAverageValue | src/AbsorptionCoefficient.py:163-171 | Sample `j` of the sequence average is the mean over the `mls reps` rows of the slice's sample `k * w + j` (row `k`, row width `w`) |
| AbsorptionCoefficient.ShortAverageSucceeds | src/AbsorptionCoefficient.py:163-171 | An average shorter than `reps + 1` periods still succeeds when `mls reps` divides what follows the first period, and its rows are shorter than a period |
| AbsorptionCoefficient.SequenceAverageIsOnePeriod | src/AbsorptionCoefficient.py:158-187 | With positive `mls reps` and an average holding at least `reps + 1` periods, the sequence average exists and is one period long (`L` for MLS, `2L` for IRS) |
| AbsorptionCoefficient.SequenceAverageOfPeriodic | src/AbsorptionCoefficient.py:163-171 | A periodic average with enough periods averages back to one period |
| AbsorptionCoefficient.ExtractSignals | src/AbsorptionCoefficient.py:122-187 | Extraction fails on empty channels. For non-sequence types it succeeds exactly when both channels have segments and passes the channel averages through. For MLS and IRS it rejects non-positive `mls reps`, succeeds exactly when, for both channels, `mls reps` divides the length of the channel average's slice after the first period of the type's length, and then returns each channel's sequence average |
| AbsorptionCoefficient.SequenceAverages | src/AbsorptionCoefficient.py:158-187 | Both channels are averaged over the same steady-state periods, and a non-positive `mls reps` is rejected |
| AbsorptionCoefficient.AnalysisIrsMatchesGenerator | src/AbsorptionCoefficient.py:88-97 | The analysis rebuilds the very IRS the generator emits |
| AbsorptionCoefficient.CircularConvolve | src/AbsorptionCoefficient.py:99-101 | The correlation is defined for equal, even, non-empty lengths, and each output sample is the circular convolution sum |
| AbsorptionCoefficient.ConvSumSub | src/AbsorptionCoefficient.py:99-104 | Convolution is linear: convolving a difference is the difference of the convolutions |
| AbsorptionCoefficient.ConvolveUnitImpulse | src/AbsorptionCoefficient.py:99 | Convolving with a unit impulse returns the signal |
| AbsorptionCoefficient.DetermineResponses | src/AbsorptionCoefficient.py:73-108 | MLS: each channel's system response and their difference; IRS: each channel correlated with the reversed IRS and their difference; other types: the averages unchanged and no system response |
| AbsorptionCoefficient.IrsSystemResponseIsCorrelatedDifference | src/AbsorptionCoefficient.py:99-104 | The IRS system response equals the correlation of the difference of the averages |
| AbsorptionCoefficient.PowerCepstrum | src/AbsorptionCoefficient.py:254-272 | The power cepstrum exists for cepstra of equal length and is their difference sample by sample |
| AbsorptionCoefficient.PowerCepstrumOfIdenticalResponses | src/AbsorptionCoefficient.py:267-272 | Identical responses give a zero power cepstrum |
| AbsorptionCoefficient.LiftWindow | src/AbsorptionCoefficient.py:237-245 | One-sided: ones, then the falling half of the taper; two-sided: rising half, ones, falling half; exists exactly when the ones count is non-negative; unknown types are rejected; the length is the window length |
| AbsorptionCoefficient.TwoSidedWindowSymmetric | src/AbsorptionCoefficient.py:242-245 | A symmetric taper gives a symmetric two-sided window |
| AbsorptionCoefficient.Lift | src/AbsorptionCoefficient.py:247-252 | The lifted response is the cepstrum from the window start, times the window, and exists exactly when the cepstrum covers the window |
| AbsorptionCoefficient.LiftWithFlatWindow | src/AbsorptionCoefficient.py:247-252 | A window of ones lifts the cepstrum unchanged |
| Pipeline.Alpha | src/AbsorptionCoefficient.py:119-120 | The coefficient has one value per bin and never exceeds 1 |
| Pipeline.AlphaRange | src/AbsorptionCoefficient.py:120 | A bin absorbs fully exactly when its magnitude is 0, and alpha is non-negative exactly when the magnitude is at most 1 |
| Pipeline.DetermineAlpha | src/AbsorptionCoefficient.py:131-149 | A missing location key stops the analysis with that error; otherwise the analysis runs on the locations read from the settings |
| Pipeline.AnalyseAt | src/AbsorptionCoefficient.py:58-120 | A result needs a successful extraction, has the window's length, and every alpha is at most 1 |
| Pipeline.IdenticalChannelsLiftNothing | src/AbsorptionCoefficient.py:58-116 | Identical channels with identical locations give a zero impulse response |
| Pipeline.AsWrittenKeyStopsAnalysis | src/AbsorptionCoefficient.py:135 | With the microphone location stored under "input impulse location", the analysis fails on the missing key |
| Pipeline.StoredLocationsReachAnalysis | src/AbsorptionCoefficient.py:135-150 | With the corrected key, the analysis runs on exactly the locations the initial analysis stored |
| Pipeline.RecordingSplitsIntoFrames | src/Measurement.py:62-66 | Cut into `signal_reps + 1` segments, the generated signal gives back exactly the emitted frames |
| Pipeline.IdealLoopbackLocatesSyncImpulse | src/Measurement.py:53-79 | On an ideal loopback with padding (no silence ahead of a frame, so a one-sample noise window) and an envelope that is silent before index 1 and above the threshold there, the corrected initial analysis yields the frames and locates both impulses at index 1 |
| Pipeline.AsWrittenRejectsSingleFrame | src/Measurement.py:62-66 | As written, `signal_reps == 0` makes the reshape fail for every recording |
| Pipeline.AsWrittenSegmentIsNotAFrame | src/Measurement.py:62-66 | As written, with several frames, a segment is never one frame long |
| Pipeline.LocatorsFindPaddedImpulse | src/SignalGenerator.py:336-337 | After `z` silent samples, the microphone locator finds the padded frame's synchronisation impulse at `z + 1` for every noise window of 1 to `z + 1` samples, and the generator locator finds it at `z + 1` for every envelope silent before it and above the threshold at it |
| Pipeline.NoiseWindowOverImpulseHidesIt | src/Measurement.py:95-107 | A noise window that reaches the synchronisation impulse (more than `z + 1` samples) stops the microphone locator from answering `z + 1` |
| Pipeline.ExtractionStartsOneSampleEarly | src/AbsorptionCoefficient.py:138-142 | Starting at location + delay, extraction begins with one preamble sample before the excitation |

## Left out

- Audio capture and playback, persistence (`MeasurementDb`, `SignalDb`), the user interface, the controllers and plotting: these are I/O and presentation, not measurement logic.
- Swept-sine and low-pass swept-sine synthesis, the Butterworth filters, the Hilbert envelope, the Hann window, the MLS database and the MLS system response: floating-point numerics or database access, taken as parameters.
- The cepstrum and the FFT: floating-point transforms, taken as parameters. The IRS correlation `irfft(rfft(a) * rfft(b))` is modelled as exact circular convolution.
- AbsorptionCoefficient.CircularConvolve: inputs of odd length, or of unequal length with equal half-spectra, are rejected. numpy's rfft/irfft would truncate or broadcast them.
- AbsorptionCoefficient.Lift: a window of length 1 broadcast over a slice of another length is reported as a shape error, not broadcast.
- Sequences.Sub: numpy broadcasting of length-1 arrays is not modelled; unequal lengths are a shape error.
- The decimation in `_downsampleSignals` (src/AbsorptionCoefficient.py:211-212): its result is overwritten by the undecimated responses at :214-215, so the model uses the responses unchanged.
- Pipeline.AnalyseAt: succeeds where `_downsampleSignals` (src/AbsorptionCoefficient.py:111, :199-212) raises, because that stage's result is discarded and it is not modelled. The failures left out are a missing "decimation factor", "antialiasing filter order" or "sample rate" key (:200-202), a decimation factor of 0 (division at :205), a cut-off `0.8 * pi / decimation_factor` that scipy `butter` rejects (at or above 1, on current scipy), and the float slice step `[::decimation_factor]` that numpy 1.12 and later reject (:211-212).
- Missing or malformed settings other than the impulse locations ("signal type", "mls reps", "fft size", "window type" and the rest): they are typed parameters of the model, so Python's `KeyError` or a failed `int()`/`float()` conversion on them is not modelled.
- AbsorptionCoefficient.PowerCepstrum: the cepstrum is a parameter of unconstrained length, so the model has a shape-error path for cepstra of different lengths. In the code both cepstra always have `fft size` samples (`fft(x, fft_size)` at src/AbsorptionCoefficient.py:267), so that path cannot occur there.
- Conversion of seconds to samples (`int(seconds * sample_rate)`, float slice indices): the caller supplies whole sample counts.
- SignalGenerator.Lower: lower-cases ASCII letters only, not full Unicode case folding.
- `generateExpontialSweptSine`: it has no body beyond logging.
- Sequences.MeanRows: numpy `average` of no rows yields `nan` with a warning; the model reports an error instead. The case is unreachable from the initial analysis, whose reshape always yields at least one row.
- Pipeline.LocatorsFindPaddedImpulse: the Hilbert envelope is a parameter, so the generator half assumes the envelope's shape (silent before the impulse, above the threshold at it) rather than deriving it from the frame.
- Pipeline.IdealLoopbackLocatesSyncImpulse: a loopback recording has no silence ahead of the frame, so only a one-sample noise window lies before the impulse; longer windows are covered by Pipeline.NoiseWindowOverImpulseHidesIt. The envelope's shape is assumed, as above.

## Findings

| source | as written | input that shows it | evidently intended | confidence | as-written member | corrected member |
|---|---|---|---|---|---|---|
| src/Measurement.py:62-66 | Both channels are reshaped into `signal_reps` segments | `signal reps = 0` (one frame): reshape into 0 rows fails. `signal reps = 1`: two frames are cut into one segment of two frames | `signal_reps + 1` segments, one per emitted frame | not executed; high | Measurement.InitialAnalysisAsWritten (Pipeline.AsWrittenRejectsSingleFrame, Pipeline.AsWrittenSegmentIsNotAFrame) | Measurement.InitialAnalysis (Pipeline.RecordingSplitsIntoFrames, Pipeline.IdealLoopbackLocatesSyncImpulse) |
| src/Measurement.py:76-77 | The microphone location is stored under "input impulse location" | Any measurement: extraction reads "microphone impulse location" (src/AbsorptionCoefficient.py:135) and finds no value | Store it under "microphone impulse location" | not executed; high | Measurement.StoreLocationsAsWritten (Measurement.AsWrittenLosesMicrophoneLocation, Pipeline.AsWrittenKeyStopsAnalysis) | Measurement.StoreLocations (Measurement.LocationsRoundTrip, Pipeline.StoredLocationsReachAnalysis) |

=== FILE: absorption_coefficient.dfy ===
/** The analysis of src/AbsorptionCoefficient.py up to the lifted impulse
    response.

    `_extractSignals` aligns every recorded segment on its impulse, averages
    the segments, and for the two sequence signals also averages the
    periods of the sequence that follow the first one. `determineAlpha`
    then turns the averages into responses: through the MLS system-response
    routine (a parameter here), through circular correlation with the
    inverse-repeat sequence, or unchanged. The power cepstrum is the
    difference of the two channels' cepstra (the cepstrum itself is a
    parameter), and `_liftImpulseResponse` multiplies a stretch of it by a
    one- or two-sided window built from a Hann taper (also a parameter).
 */
module AbsorptionCoefficient {
  import opened Results
  import opened Sequences
  import opened SignalGenerator
  import opened Measurement

  // ---------------------------------------------------------------------
  // Signal extraction

  /** The settings `_extractSignals` reads. The impulse delay is already a
      whole number of samples. */
  datatype ExtractionSettings = ExtractionSettings(
    signalType: string,
    impulseDelaySamples: nat,
    mlsTaps: nat,
    mlsReps: int)

  /** The averaged response of each channel. */
  datatype Averages = Averages(microphone: seq<real>, generator: seq<real>)

  /** `[signal[start:] for signal in segments]`. */
  function AlignSegments(segments: seq<seq<real>>, start: int): (r: seq<seq<real>>)
    requires Rectangular(segments)
    ensures |r| == |segments| && Rectangular(r)
    ensures forall k :: 0 <= k < |r| ==> r[k] == SliceFrom(segments[k], start)
  {
    seq(|segments|, k requires 0 <= k < |segments| => SliceFrom(segments[k], start))
  }

  /** One channel of `_extractSignals`: every segment from the impulse
      location plus the impulse delay on, averaged sample by sample. */
  function AverageChannel(segments: seq<seq<real>>, location: int, delay: nat): (r: Result<seq<real>>)
    requires Rectangular(segments)
    ensures r.Ok? <==> |segments| > 0
    ensures r.Ok? ==> |r.value| == |SliceFrom(segments[0], location + delay)|
    ensures r.Ok? ==> forall j :: 0 <= j < |r.value| ==>
      r.value[j] == Mean(Column(AlignSegments(segments, location + delay), j))
  {
    MeanRows(AlignSegments(segments, location + delay))
  }

  /** Averaging segments that all hold the same recording gives back that
      recording from the start sample on. */
  lemma AverageOfIdenticalSegments(segments: seq<seq<real>>, segment: seq<real>, location: int, delay: nat)
    requires |segments| > 0
    requires forall k :: 0 <= k < |segments| ==> segments[k] == segment
    ensures AverageChannel(segments, location, delay) == Ok(SliceFrom(segment, location + delay))
  {
    MeanRowsIdentical(AlignSegments(segments, location + delay), SliceFrom(segment, location + delay));
  }

  /** Samples before the start of the signal do not contribute: segments
      that agree from the start sample on average to the same response. */
  lemma AverageIgnoresPreamble(a: seq<seq<real>>, b: seq<seq<real>>, location: int, delay: nat)
    requires Rectangular(a) && Rectangular(b) && |a| == |b|
    requires forall k :: 0 <= k < |a| ==> SliceFrom(a[k], location + delay) == SliceFrom(b[k], location + delay)
    ensures AverageChannel(a, location, delay) == AverageChannel(b, location, delay)
  {
    assert AlignSegments(a, location + delay) == AlignSegments(b, location + delay);
  }

  /** The sequence branches of `_extractSignals`: skip the first period,
      cut the next `reps` periods into rows and average them. The
      `assert(mls_reps > 0)` is the first error. */
  function SequenceAverage(average: seq<real>, period: nat, reps: int): (r: Result<seq<real>>)
    ensures reps <= 0 ==> r == Err(NonPositiveSequenceReps(reps))
    ensures reps > 0 ==> (r.Ok? <==> |Slice(average, period, period * (reps + 1))| % reps == 0)
    ensures r.Ok? ==> |r.value| == |Slice(average, period, period * (reps + 1))| / reps
  {
    if reps <= 0 then Err(NonPositiveSequenceReps(reps))
    else if Reshape(Slice(average, period, period * (reps + 1)), reps).Err? then
      Err(Reshape(Slice(average, period, period * (reps + 1)), reps).error)
    else
      MeanRows(Reshape(Slice(average, period, period * (reps + 1)), reps).value)
  }

  /** Each sample of the sequence average is the mean, over the `reps`
      rows, of the samples at that offset: `s[k * w + j]` for every row `k`,
      where `s` is the stretch after the first period and `w` its row
      width. */
  lemma SequenceAverageValue(average: seq<real>, period: nat, reps: int)
    ensures var s := Slice(average, period, period * (reps + 1));
      var r := SequenceAverage(average, period, reps);
      r.Ok? ==> forall j :: 0 <= j < |r.value| ==> r.value[j] == Mean(BlockColumn(s, reps, j))
  {
    var s := Slice(average, period, period * (reps + 1));
    var r := SequenceAverage(average, period, reps);
    if r.Ok? {
      forall j | 0 <= j < |r.value|
        ensures r.value[j] == Mean(BlockColumn(s, reps, j))
      {
        ReshapeColumn(s, reps, j);
      }
    }
  }

  /** The period is never checked: an average shorter than `reps + 1`
      periods still succeeds whenever `reps` divides what follows the first
      period, and then yields rows shorter than a period. */
  lemma ShortAverageSucceeds(average: seq<real>, period: nat, reps: int)
    requires reps > 0 && period <= |average| < period * (reps + 1)
    requires (|average| - period) % reps == 0
    ensures SequenceAverage(average, period, reps).Ok?
    ensures |SequenceAverage(average, period, reps).value| == (|average| - period) / reps < period
  {
    var n := |average| - period;
    assert |Slice(average, period, period * (reps + 1))| == n;
    var q := n / reps;
    DivExact(n, reps);
    assert n < period * reps by {
      assert period * (reps + 1) == period + period * reps;
    }
    if q >= period {
      MulLe(period, q, reps);
      assert false;
    }
  }

  /** When the average holds at least `reps + 1` copies of one period, the
      sequence average is exactly that period. */
  lemma SequenceAverageOfPeriodic(block: seq<real>, copies: nat, reps: int)
    requires |block| > 0 && reps > 0 && copies >= reps + 1
    ensures SequenceAverage(Repeat(block, copies), |block|, reps) == Ok(block)
  {
    var w := |block|;
    var sig := Slice(Repeat(block, copies), w, w * (reps + 1));
    var rows := seq(reps, _ => block);
    assert sig == Repeat(block, reps) by {
      RepeatSkipFirst(block, copies, reps);
      assert w * (reps + 1) == w + reps * w;
    }
    assert Reshape(sig, reps) == Ok(rows) by {
      ReshapeRepeat(block, reps);
    }
    assert MeanRows(rows) == Ok(block) by {
      MeanRowsIdentical(rows, block);
    }
  }

  /** With positive `reps` and an average long enough to hold `reps + 1`
      periods, the sequence average exists and is exactly one period long. */
  lemma SequenceAverageIsOnePeriod(average: seq<real>, period: nat, reps: int)
    requires reps > 0 && |average| >= period * (reps + 1)
    ensures SequenceAverage(average, period, reps).Ok?
    ensures |SequenceAverage(average, period, reps).value| == period
  {
    var hi := period * (reps + 1);
    assert hi == period + reps * period;
    assert |Slice(average, period, hi)| == reps * period;
    MultipleDiv(period, reps);
  }

  /** The period `_extractSignals` averages over: the sequence length for
      an MLS, twice that for an IRS. */
  function SequencePeriod(kind: SignalType, taps: nat): nat {
    if kind == InverseRepeatSequence then 2 * MlsLength(taps) else MlsLength(taps)
  }

  /** The two signal types whose averages are further averaged over the
      sequence periods. */
  predicate IsSequenceType(kind: Option<SignalType>) {
    kind == Some(MaximumLengthSequence) || kind == Some(InverseRepeatSequence)
  }

  /** `_extractSignals`: both channels aligned and averaged, then, for the
      two sequence signals, averaged over the sequence periods. */
  function ExtractSignals(microphoneSegments: seq<seq<real>>, generatorSegments: seq<seq<real>>,
                          locations: ImpulseLocations, settings: ExtractionSettings): (r: Result<Averages>)
    requires Rectangular(microphoneSegments) && Rectangular(generatorSegments)
    ensures |microphoneSegments| == 0 || |generatorSegments| == 0 ==> r == Err(EmptyAverage)
    ensures !IsSequenceType(ParseSignalType(settings.signalType)) ==>
      (r.Ok? <==> |microphoneSegments| > 0 && |generatorSegments| > 0)
    ensures r.Ok? && !IsSequenceType(ParseSignalType(settings.signalType)) ==>
      && Ok(r.value.microphone) == AverageChannel(microphoneSegments, locations.microphone, settings.impulseDelaySamples)
      && Ok(r.value.generator) == AverageChannel(generatorSegments, locations.generator, settings.impulseDelaySamples)
    ensures IsSequenceType(ParseSignalType(settings.signalType)) && |microphoneSegments| > 0 && |generatorSegments| > 0 ==>
      var period := SequencePeriod(ParseSignalType(settings.signalType).value, settings.mlsTaps);
      var microphone := AverageChannel(microphoneSegments, locations.microphone, settings.impulseDelaySamples).value;
      var generator := AverageChannel(generatorSegments, locations.generator, settings.impulseDelaySamples).value;
      && (r.Ok? <==> SequenceAverage(microphone, period, settings.mlsReps).Ok?
                     && SequenceAverage(generator, period, settings.mlsReps).Ok?)
      && (r.Ok? ==> Ok(r.value.microphone) == SequenceAverage(microphone, period, settings.mlsReps)
                    && Ok(r.value.generator) == SequenceAverage(generator, period, settings.mlsReps))
    ensures ParseSignalType(settings.signalType) in {Some(MaximumLengthSequence), Some(InverseRepeatSequence)}
            && settings.mlsReps <= 0 && |microphoneSegments| > 0 && |generatorSegments| > 0 ==>
      r == Err(NonPositiveSequenceReps(settings.mlsReps))
  {
    var microphone :- AverageChannel(microphoneSegments, locations.microphone, settings.impulseDelaySamples);
    var generator :- AverageChannel(generatorSegments, locations.generator, settings.impulseDelaySamples);
    match ParseSignalType(settings.signalType)
    case Some(MaximumLengthSequence) =>
      SequenceAverages(microphone, generator, SequencePeriod(MaximumLengthSequence, settings.mlsTaps), settings.mlsReps)
    case Some(InverseRepeatSequence) =>
      SequenceAverages(microphone, generator, SequencePeriod(InverseRepeatSequence, settings.mlsTaps), settings.mlsReps)
    case _ => Ok(Averages(microphone, generator))
  }

  function SequenceAverages(microphone: seq<real>, generator: seq<real>, period: nat, reps: int): (r: Result<Averages>)
    ensures reps <= 0 ==> r == Err(NonPositiveSequenceReps(reps))
    ensures r.Ok? <==> SequenceAverage(microphone, period, reps).Ok? && SequenceAverage(generator, period, reps).Ok?
    ensures r.Ok? ==> (Ok(r.value.microphone) == SequenceAverage(microphone, period, reps)
                    && Ok(r.value.generator) == SequenceAverage(generator, period, reps))
  {
    var m :- SequenceAverage(microphone, period, reps);
    var g :- SequenceAverage(generator, period, reps);
    Ok(Averages(m, g))
  }

  // ---------------------------------------------------------------------
  // Responses

  /** The inverse-repeat sequence as `determineAlpha` rebuilds it: the
      bipolar sequence written twice, odd entries negated one at a time.
      `AnalysisIrsPrefix(doubled, n)` is the array after `n` iterations. */
  function AnalysisIrsPrefix(doubled: seq<real>, n: nat): (irs: seq<real>)
    requires n <= |doubled|
    ensures |irs| == n
  {
    if n == 0 then []
    else
      var sample := doubled[n - 1];
      AnalysisIrsPrefix(doubled, n - 1) + [if (n - 1) % 2 == 0 then sample else -1.0 * sample]
  }

  function AnalysisIrs(mls: seq<int>): seq<real> {
    var bipolar := Bipolar(mls);
    AnalysisIrsPrefix(bipolar + bipolar, 2 * |mls|)
  }

  lemma {:induction false} AnalysisIrsPrefixIndex(doubled: seq<real>, n: nat)
    requires n <= |doubled|
    ensures forall i :: 0 <= i < n ==>
      AnalysisIrsPrefix(doubled, n)[i] == if i % 2 == 0 then doubled[i] else -doubled[i]
  {
    if n > 0 {
      AnalysisIrsPrefixIndex(doubled, n - 1);
    }
  }

  /** The analysis rebuilds exactly the sequence the generator emitted. */
  lemma AnalysisIrsMatchesGenerator(mls: seq<int>)
    ensures AnalysisIrs(mls) == InverseRepeat(Bipolar(mls))
  {
    var b := Bipolar(mls);
    var doubled := b + b;
    AnalysisIrsPrefixIndex(doubled, 2 * |mls|);
    forall i | 0 <= i < 2 * |mls|
      ensures doubled[i] == b[i % |b|]
    {
      if i < |b| {
        BlockIndex(i, 0, |b|);
      } else {
        BlockIndex(i, 1, |b|);
      }
    }
  }

  /** One term of a circular convolution: `a[m] * b[(n - m) mod N]`. */
  function ConvTerm(a: seq<real>, b: seq<real>, n: int, m: nat): real
    requires m < |a| == |b|
  {
    a[m] * b[(n - m) % |b|]
  }

  /** The sum of the first `m` terms of output sample `n`. */
  function ConvSum(a: seq<real>, b: seq<real>, n: int, m: nat): real
    requires m <= |a| == |b|
  {
    if m == 0 then 0.0 else ConvSum(a, b, n, m - 1) + ConvTerm(a, b, n, m - 1)
  }

  /** `irfft(rfft(a) * rfft(b))`: the circular convolution of two arrays
      of the same even, non-zero length; any other pair is an error. */
  function CircularConvolve(a: seq<real>, b: seq<real>): (r: Result<seq<real>>)
    ensures r.Ok? <==> |a| == |b| && |a| > 0 && |a| % 2 == 0
    ensures r.Ok? ==> |r.value| == |a|
    ensures r.Ok? ==> forall n :: 0 <= n < |a| ==> r.value[n] == ConvSum(a, b, n, |a|)
  {
    if |a| != |b| || |a| == 0 || |a| % 2 != 0 then Err(TransformLength(|a|, |b|))
    else Ok(seq(|a|, n requires 0 <= n < |a| => ConvSum(a, b, n, |a|)))
  }

  /** Convolution distributes over the difference of two inputs. */
  lemma {:induction false} ConvSumSub(a: seq<real>, a': seq<real>, b: seq<real>, n: int, m: nat)
    requires |a| == |a'| == |b| && m <= |a|
    ensures ConvSum(Sub(a, a'), b, n, m) == ConvSum(a, b, n, m) - ConvSum(a', b, n, m)
  {
    if m > 0 {
      ConvSumSub(a, a', b, n, m - 1);
      var x, y, z := a[m - 1], a'[m - 1], b[(n - (m - 1)) % |b|];
      assert ConvTerm(Sub(a, a'), b, n, m - 1) == (x - y) * z;
      assert (x - y) * z == x * z - y * z;
    }
  }

  /** The unit impulse of length `n`. */
  function UnitImpulse(n: nat): (r: seq<real>)
    requires n > 0
    ensures |r| == n && r[0] == 1.0
    ensures forall i :: 0 < i < n ==> r[i] == 0.0
  {
    [1.0] + Zeros(n - 1)
  }

  /** Only the term with `m == n` survives convolution with a unit impulse. */
  lemma {:induction false} ConvSumUnit(a: seq<real>, n: nat, m: nat)
    requires n < |a| && m <= |a|
    ensures ConvSum(a, UnitImpulse(|a|), n, m) == if m > n then a[n] else 0.0
  {
    if m > 0 {
      ConvSumUnit(a, n, m - 1);
      var N := |a|;
      var j := m - 1;
      if j <= n {
        BlockIndex(n - j, 0, N);
      } else {
        BlockIndex(n - j, -1, N);
      }
    }
  }

  /** Convolving with a unit impulse returns the input unchanged. */
  lemma ConvolveUnitImpulse(a: seq<real>)
    requires |a| > 0 && |a| % 2 == 0
    ensures CircularConvolve(a, UnitImpulse(|a|)) == Ok(a)
  {
    forall n | 0 <= n < |a|
      ensures ConvSum(a, UnitImpulse(|a|), n, |a|) == a[n]
    {
      ConvSumUnit(a, n, |a|);
    }
    assert CircularConvolve(a, UnitImpulse(|a|)).value == a;
  }

  /** The three responses `determineAlpha` derives; only the MLS and IRS
      branches set a system response. */
  datatype Responses = Responses(microphone: seq<real>, generator: seq<real>, system: Option<seq<real>>)

  /** The external routines the response stage calls: the MLS database's
      sequence and system-response routine. */
  datatype SequenceSource = SequenceSource(
    mls: nat -> seq<int>,
    systemResponse: (seq<real>, nat) -> seq<real>)

  /** The correlation kernel: the inverse-repeat sequence reversed. */
  function IrsKernel(mls: seq<int>): seq<real> {
    Reverse(AnalysisIrs(mls))
  }

  /** The branches of `determineAlpha` that turn averages into responses. */
  function DetermineResponses(averages: Averages, kind: Option<SignalType>, taps: nat,
                              source: SequenceSource): (r: Result<Responses>)
    ensures kind == Some(MaximumLengthSequence) ==>
      var m := source.systemResponse(averages.microphone, taps);
      var g := source.systemResponse(averages.generator, taps);
      (r.Ok? <==> |m| == |g|) && (r.Ok? ==> r.value == Responses(m, g, Some(Sub(m, g))))
    ensures kind == Some(InverseRepeatSequence) ==>
      (r.Ok? <==> |averages.microphone| == |averages.generator| == 2 * |source.mls(taps)| > 0)
    ensures kind == Some(InverseRepeatSequence) && r.Ok? ==>
      && Ok(r.value.microphone) == CircularConvolve(averages.microphone, IrsKernel(source.mls(taps)))
      && Ok(r.value.generator) == CircularConvolve(averages.generator, IrsKernel(source.mls(taps)))
      && r.value.system == Some(Sub(r.value.microphone, r.value.generator))
    ensures kind !in {Some(MaximumLengthSequence), Some(InverseRepeatSequence)} ==>
      r == Ok(Responses(averages.microphone, averages.generator, None))
  {
    match kind
    case Some(MaximumLengthSequence) =>
      var m := source.systemResponse(averages.microphone, taps);
      var g := source.systemResponse(averages.generator, taps);
      var system :- SubChecked(m, g);
      Ok(Responses(m, g, Some(system)))
    case Some(InverseRepeatSequence) =>
      var kernel := IrsKernel(source.mls(taps));
      var m :- CircularConvolve(averages.microphone, kernel);
      var g :- CircularConvolve(averages.generator, kernel);
      Ok(Responses(m, g, Some(Sub(m, g))))
    case _ => Ok(Responses(averages.microphone, averages.generator, None))
  }

  /** In the IRS branch the system response is the correlation of the
      difference of the two averages: subtracting after correlating is the
      same as correlating the difference. */
  lemma IrsSystemResponseIsCorrelatedDifference(averages: Averages, taps: nat, source: SequenceSource)
    requires DetermineResponses(averages, Some(InverseRepeatSequence), taps, source).Ok?
    ensures CircularConvolve(Sub(averages.microphone, averages.generator), IrsKernel(source.mls(taps))).Ok?
    ensures DetermineResponses(averages, Some(InverseRepeatSequence), taps, source).value.system
         == Some(CircularConvolve(Sub(averages.microphone, averages.generator), IrsKernel(source.mls(taps))).value)
  {
    var a, a', b := averages.microphone, averages.generator, IrsKernel(source.mls(taps));
    var r := DetermineResponses(averages, Some(InverseRepeatSequence), taps, source).value;
    var d := CircularConvolve(Sub(a, a'), b).value;
    forall n | 0 <= n < |a|
      ensures d[n] == r.microphone[n] - r.generator[n]
    {
      ConvSumSub(a, a', b, n, |a|);
    }
    assert d == Sub(r.microphone, r.generator);
  }

  // ---------------------------------------------------------------------
  // Power cepstrum and lifting

  /** `_determineCepstrum`: microphone cepstrum minus generator cepstrum. */
  function PowerCepstrum(responses: Responses, cepstrum: seq<real> -> seq<real>): (r: Result<seq<real>>)
    ensures r.Ok? <==> |cepstrum(responses.microphone)| == |cepstrum(responses.generator)|
    ensures r.Ok? ==> |r.value| == |cepstrum(responses.microphone)|
    ensures r.Ok? ==> forall i :: 0 <= i < |r.value| ==>
      r.value[i] == cepstrum(responses.microphone)[i] - cepstrum(responses.generator)[i]
  {
    SubChecked(cepstrum(responses.microphone), cepstrum(responses.generator))
  }

  /** When the microphone hears exactly what the generator sent, the power
      cepstrum is zero everywhere. */
  lemma PowerCepstrumOfIdenticalResponses(responses: Responses, cepstrum: seq<real> -> seq<real>)
    requires responses.microphone == responses.generator
    ensures PowerCepstrum(responses, cepstrum) == Ok(Zeros(|cepstrum(responses.microphone)|))
  {
    var c := cepstrum(responses.microphone);
    assert Sub(c, c) == Zeros(|c|);
  }

  const OneSided: string := "one sided"
  const TwoSided: string := "two sided"

  /** The window of `_liftImpulseResponse`. `taper` is the Hann window of
      `2 * taperSamples` points. The window type is compared exactly, and
      `ones` of a negative length is an error. */
  function LiftWindow(windowType: string, windowSamples: int, taperSamples: nat, taper: seq<real>): (r: Result<seq<real>>)
    requires |taper| == 2 * taperSamples
    ensures windowType != OneSided && windowType != TwoSided ==> r == Err(UnknownWindowType(windowType))
    ensures windowType == OneSided ==> (r.Ok? <==> taperSamples <= windowSamples)
    ensures windowType == TwoSided ==> (r.Ok? <==> 2 * taperSamples <= windowSamples)
    ensures r.Ok? ==> |r.value| == windowSamples
    ensures r.Ok? && windowType == OneSided ==>
      && (forall i :: 0 <= i < windowSamples - taperSamples ==> r.value[i] == 1.0)
      && r.value[windowSamples - taperSamples..] == taper[taperSamples..]
    ensures r.Ok? && windowType == TwoSided ==>
      && r.value[..taperSamples] == taper[..taperSamples]
      && (forall i :: taperSamples <= i < windowSamples - taperSamples ==> r.value[i] == 1.0)
      && r.value[windowSamples - taperSamples..] == taper[taperSamples..]
  {
    if windowType == OneSided then
      if windowSamples - taperSamples < 0 then Err(NegativeDimension(windowSamples - taperSamples))
      else Ok(Ones(windowSamples - taperSamples) + taper[taperSamples..])
    else if windowType == TwoSided then
      if windowSamples - 2 * taperSamples < 0 then Err(NegativeDimension(windowSamples - 2 * taperSamples))
      else
        var w := taper[..taperSamples] + Ones(windowSamples - 2 * taperSamples) + taper[taperSamples..];
        assert w[..taperSamples] == taper[..taperSamples];
        assert w[windowSamples - taperSamples..] == taper[taperSamples..];
        Ok(w)
    else Err(UnknownWindowType(windowType))
  }

  predicate Symmetric(s: seq<real>) {
    forall i :: 0 <= i < |s| ==> s[i] == s[|s| - 1 - i]
  }

  /** A symmetric taper (every Hann window is one) gives a symmetric
      two-sided window. */
  lemma TwoSidedWindowSymmetric(windowSamples: int, taperSamples: nat, taper: seq<real>)
    requires |taper| == 2 * taperSamples && Symmetric(taper)
    requires LiftWindow(TwoSided, windowSamples, taperSamples, taper).Ok?
    ensures Symmetric(LiftWindow(TwoSided, windowSamples, taperSamples, taper).value)
  {
    var w := LiftWindow(TwoSided, windowSamples, taperSamples, taper).value;
    var W, t := windowSamples, taperSamples;
    forall i | 0 <= i < W
      ensures w[i] == w[W - 1 - i]
    {
      if i < t {
        assert w[i] == taper[i];
        assert w[W - 1 - i] == w[W - t..][t - 1 - i] == taper[t..][t - 1 - i];
      } else if i >= W - t {
        assert w[i] == w[W - t..][i - (W - t)] == taper[t + i - (W - t)];
        assert w[W - 1 - i] == taper[W - 1 - i];
      }
    }
  }

  /** `power_cepstrum[start:start + len(window)] * window`; an error when
      the cepstrum is too short to supply a full window's worth. */
  function Lift(cepstrum: seq<real>, start: nat, window: seq<real>): (r: Result<seq<real>>)
    ensures r.Ok? <==> start + |window| <= |cepstrum| || |window| == 0
    ensures r.Ok? ==> |r.value| == |window|
    ensures r.Ok? ==> forall i :: 0 <= i < |window| ==> r.value[i] == cepstrum[start + i] * window[i]
  {
    var segment := Slice(cepstrum, start, start + |window|);
    if |segment| != |window| then Err(ShapeMismatch(|segment|, |window|))
    else Ok(seq(|window|, i requires 0 <= i < |window| => segment[i] * window[i]))
  }

  /** Lifting with an all-ones window cuts out the cepstrum unchanged. */
  lemma LiftWithFlatWindow(cepstrum: seq<real>, start: nat, n: nat)
    requires start + n <= |cepstrum|
    ensures Lift(cepstrum, start, Ones(n)) == Ok(cepstrum[start..start + n])
  {
    var r := Lift(cepstrum, start, Ones(n)).value;
    forall i | 0 <= i < n
      ensures r[i] == cepstrum[start..start + n][i]
    {
      assert r[i] == cepstrum[start + i] * 1.0;
    }
    assert r == cepstrum[start..start + n];
  }
}

=== FILE: measurement.dfy ===
/** Synchronisation-impulse location (src/Measurement.py).

    The captured buffer of each channel is split into one segment per
    emitted frame, and only the first segment is scanned. Both locators
    work on the first difference of a signal (`d[0] = 0`) and return the
    first index whose difference crosses a threshold, or -1 when none does:
    the microphone locator compares `|d[k]|` with the peak noise level of the
    first samples times a constant, the generator locator compares the
    signed `d[k]` of the Hilbert envelope with a fixed threshold. The
    envelope is computed outside this model and is a parameter.
 */
module Measurement {
  import opened Results
  import opened Sequences

  // ---------------------------------------------------------------------
  // First difference

  /** `r_[0, signal[1:] - signal[:-1]]`. An empty signal still yields the
      leading 0. */
  function Diff(s: seq<real>): (d: seq<real>)
    ensures |d| == if |s| == 0 then 1 else |s|
    ensures d[0] == 0.0
    ensures forall i :: 1 <= i < |s| ==> d[i] == s[i] - s[i - 1]
  {
    if |s| == 0 then [0.0]
    else [0.0] + seq(|s| - 1, i requires 0 <= i < |s| - 1 => s[i + 1] - s[i])
  }

  /** Running sum of a difference sequence from a start value: the inverse
      of `Diff`. */
  function Integrate(start: real, d: seq<real>): (s: seq<real>)
    ensures |s| == |d|
  {
    if |d| == 0 then []
    else if |d| == 1 then [start]
    else
      var prefix := Integrate(start, d[..|d| - 1]);
      prefix + [prefix[|prefix| - 1] + d[|d| - 1]]
  }

  /** Differencing loses only the first sample: integrating the
      differences from `s[0]` rebuilds the signal. */
  lemma {:induction false} IntegrateDiff(s: seq<real>)
    requires |s| > 0
    ensures Integrate(s[0], Diff(s)) == s
  {
    if |s| == 1 {
      assert Diff(s) == [0.0];
    } else {
      var t := s[..|s| - 1];
      IntegrateDiff(t);
      assert t[0] == s[0];
      IntegrateStep(s);
    }
  }

  /** Extending the signal by one sample extends the rebuilt signal by that
      sample. */
  lemma IntegrateStep(s: seq<real>)
    requires |s| > 1
    requires Integrate(s[0], Diff(s[..|s| - 1])) == s[..|s| - 1]
    ensures Integrate(s[0], Diff(s)) == s
  {
    var t := s[..|s| - 1];
    var d := Diff(s);
    var last := s[|s| - 1];
    assert d[..|d| - 1] == Diff(t) by {
      DiffPrefix(s);
    }
    assert Integrate(s[0], d) == t + [t[|t| - 1] + d[|d| - 1]] by {
      IntegrateSnoc(s[0], d, t);
    }
    assert t[|t| - 1] + d[|d| - 1] == last by {
      DiffLast(s);
    }
    assert s == t + [last];
  }

  /** The last difference closes the gap between the last two samples. */
  lemma DiffLast(s: seq<real>)
    requires |s| > 1
    ensures s[..|s| - 1][|s| - 2] + Diff(s)[|s| - 1] == s[|s| - 1]
  {
  }

  /** One step of the running sum. */
  lemma IntegrateSnoc(start: real, d: seq<real>, prefix: seq<real>)
    requires |d| >= 2 && |prefix| == |d| - 1
    requires Integrate(start, d[..|d| - 1]) == prefix
    ensures Integrate(start, d) == prefix + [prefix[|prefix| - 1] + d[|d| - 1]]
  {
  }

  /** Dropping the last sample drops the last difference. */
  lemma DiffPrefix(s: seq<real>)
    requires |s| > 1
    ensures Diff(s)[..|s| - 1] == Diff(s[..|s| - 1])
  {
    var t := s[..|s| - 1];
    forall i | 1 <= i < |t|
      ensures Diff(s)[i] == Diff(t)[i]
    {
      assert t[i] == s[i] && t[i - 1] == s[i - 1];
    }
  }

  // ---------------------------------------------------------------------
  // Noise level

  function Abs(x: real): real {
    if x < 0.0 then -x else x
  }

  /** Largest magnitude in a non-empty sequence. */
  function MaxAbs(xs: seq<real>): (m: real)
    requires |xs| > 0
    ensures forall i :: 0 <= i < |xs| ==> Abs(xs[i]) <= m
  {
    if |xs| == 1 then Abs(xs[0])
    else
      var rest := MaxAbs(xs[1..]);
      assert forall i :: 1 <= i < |xs| ==> xs[i] == xs[1..][i - 1];
      if Abs(xs[0]) >= rest then Abs(xs[0]) else rest
  }

  /** The maximum is the magnitude of one of the samples. */
  lemma {:induction false} MaxAbsAttained(xs: seq<real>)
    requires |xs| > 0
    ensures exists i :: 0 <= i < |xs| && Abs(xs[i]) == MaxAbs(xs)
  {
    if |xs| > 1 && Abs(xs[0]) < MaxAbs(xs[1..]) {
      MaxAbsAttained(xs[1..]);
      var i :| 0 <= i < |xs| - 1 && Abs(xs[1..][i]) == MaxAbs(xs[1..]);
      assert Abs(xs[i + 1]) == MaxAbs(xs);
    } else {
      assert Abs(xs[0]) == MaxAbs(xs);
    }
  }

  /** Number of samples in the noise window `d[:noise_samples]`. */
  function NoiseWindow(noiseSamples: int, n: nat): nat {
    PyIndex(noiseSamples, n)
  }

  /** `max(abs(d[:noise_samples]))`; an empty window is an error. */
  function PeakNoiseLevel(d: seq<real>, noiseSamples: int): (r: Result<real>)
    ensures r.Ok? <==> NoiseWindow(noiseSamples, |d|) > 0
    ensures r.Ok? ==> forall i :: 0 <= i < NoiseWindow(noiseSamples, |d|) ==> Abs(d[i]) <= r.value
    ensures r.Ok? ==> r.value >= 0.0
  {
    var window := Slice(d, 0, noiseSamples);
    assert window == d[..NoiseWindow(noiseSamples, |d|)];
    if |window| == 0 then Err(EmptyMaximum)
    else
      assert forall i :: 0 <= i < |window| ==> d[i] == window[i];
      Ok(MaxAbs(window))
  }

  /** The peak noise level is the magnitude of a sample in the window. */
  lemma PeakNoiseAttained(d: seq<real>, noiseSamples: int)
    requires PeakNoiseLevel(d, noiseSamples).Ok?
    ensures exists i :: 0 <= i < NoiseWindow(noiseSamples, |d|) && Abs(d[i]) == PeakNoiseLevel(d, noiseSamples).value
  {
    var window := d[..NoiseWindow(noiseSamples, |d|)];
    assert Slice(d, 0, noiseSamples) == window;
    MaxAbsAttained(window);
    var i :| 0 <= i < |window| && Abs(window[i]) == MaxAbs(window);
    assert Abs(d[i]) == PeakNoiseLevel(d, noiseSamples).value;
  }

  // ---------------------------------------------------------------------
  // First-crossing scan

  /** What counts as a crossing: the microphone locator compares the
      magnitude of a difference with its level, the generator locator the
      signed difference. */
  datatype Criterion = Magnitude(peak: real, constant: real) | Signed(level: real)

  predicate Crosses(c: Criterion, x: real) {
    match c
    case Magnitude(peak, constant) => Abs(x) > peak * constant
    case Signed(level) => x > level
  }

  /** `k` is the first index of `d` that crosses, or -1 when none does. */
  predicate FirstCrossing(d: seq<real>, c: Criterion, k: int) {
    && -1 <= k < |d|
    && (k == -1 <==> forall j :: 0 <= j < |d| ==> !Crosses(c, d[j]))
    && (k != -1 ==> Crosses(c, d[k]) && forall j :: 0 <= j < k ==> !Crosses(c, d[j]))
  }

  /** The first index at or after `from` whose sample crosses, or -1: the
      `for ... enumerate(...): if ...: return` loop of both locators. */
  function FirstMatch(d: seq<real>, c: Criterion, from: nat): (k: int)
    requires from <= |d|
    decreases |d| - from
    ensures k == -1 || from <= k < |d|
    ensures k == -1 <==> forall j :: from <= j < |d| ==> !Crosses(c, d[j])
    ensures k != -1 ==> Crosses(c, d[k]) && forall j :: from <= j < k ==> !Crosses(c, d[j])
  {
    if from == |d| then -1
    else if Crosses(c, d[from]) then from
    else FirstMatch(d, c, from + 1)
  }

  /** A silent sample never crosses a non-negative magnitude level. */
  lemma SilenceNeverCrosses(peak: real, constant: real)
    requires peak >= 0.0 && constant >= 0.0
    ensures !Crosses(Magnitude(peak, constant), 0.0)
  {
  }

  /** With a constant of at least one, a sample no louder than the peak
      noise does not cross. */
  lemma NoiseNeverCrosses(peak: real, constant: real, x: real)
    requires peak >= 0.0 && constant >= 1.0
    ensures Abs(x) <= peak ==> !Crosses(Magnitude(peak, constant), x)
  {
    assert peak * constant - peak == peak * (constant - 1.0);
  }

  /** Over silent noise every non-zero sample crosses, and only those. */
  lemma SilentNoiseCrossing(constant: real, x: real)
    ensures Crosses(Magnitude(0.0, constant), x) <==> x != 0.0
  {
  }

  /** `locateSignalImpulse`: the first sample whose difference exceeds the
      peak noise level times `constant` in magnitude, -1 when none does; an
      error when the noise window is empty. */
  function LocateSignalImpulse(signal: seq<real>, noiseSamples: int, constant: real): (r: Result<int>)
    ensures r.Ok? <==> NoiseWindow(noiseSamples, |Diff(signal)|) > 0
    ensures r.Ok? ==> FirstCrossing(Diff(signal), Magnitude(PeakNoiseLevel(Diff(signal), noiseSamples).value, constant), r.value)
  {
    if PeakNoiseLevel(Diff(signal), noiseSamples).Err? then Err(EmptyMaximum)
    else Ok(FirstMatch(Diff(signal), Magnitude(PeakNoiseLevel(Diff(signal), noiseSamples).value, constant), 0))
  }

  /** `locateGeneratorImpulse` after the envelope: the first sample whose
      signed difference exceeds `threshold`, -1 when none does. */
  function LocateGeneratorImpulse(envelope: seq<real>, threshold: real): (k: int)
    ensures FirstCrossing(Diff(envelope), Signed(threshold), k)
  {
    FirstMatch(Diff(envelope), Signed(threshold), 0)
  }

  // ---------------------------------------------------------------------
  // Locator properties

  /** With a non-negative threshold neither locator can answer index 0,
      whose difference is always 0. */
  lemma LocatorsNeverAnswerZero(signal: seq<real>, noiseSamples: int, constant: real,
                                envelope: seq<real>, threshold: real)
    requires constant >= 0.0 && threshold >= 0.0
    ensures LocateSignalImpulse(signal, noiseSamples, constant).Ok? ==>
      LocateSignalImpulse(signal, noiseSamples, constant).value != 0
    ensures LocateGeneratorImpulse(envelope, threshold) != 0
  {
    if PeakNoiseLevel(Diff(signal), noiseSamples).Ok? {
      SilenceNeverCrosses(PeakNoiseLevel(Diff(signal), noiseSamples).value, constant);
    }
  }

  /** With `constant >= 1` every sample of the noise window stays at or
      below the threshold, so a found impulse lies after the window. */
  lemma MicrophoneImpulseAfterNoiseWindow(signal: seq<real>, noiseSamples: int, constant: real)
    requires constant >= 1.0
    ensures LocateSignalImpulse(signal, noiseSamples, constant).Ok? &&
            LocateSignalImpulse(signal, noiseSamples, constant).value != -1 ==>
      LocateSignalImpulse(signal, noiseSamples, constant).value >= NoiseWindow(noiseSamples, |Diff(signal)|)
  {
    if LocateSignalImpulse(signal, noiseSamples, constant).Ok? && LocateSignalImpulse(signal, noiseSamples, constant).value != -1 {
      var k := LocateSignalImpulse(signal, noiseSamples, constant).value;
      NoiseNeverCrosses(PeakNoiseLevel(Diff(signal), noiseSamples).value, constant, Diff(signal)[k]);
    }
  }

  /** A signal that is silent before index `k >= 1` and steps to `h` above
      the threshold at `k` is located exactly at `k` by the generator
      locator. */
  lemma GeneratorFindsCleanStep(envelope: seq<real>, k: nat, h: real, threshold: real)
    requires 1 <= k < |envelope|
    requires forall j :: 0 <= j < k ==> envelope[j] == 0.0
    requires envelope[k] == h && h > threshold && threshold >= 0.0
    ensures LocateGeneratorImpulse(envelope, threshold) == k
  {
    var d := Diff(envelope);
    assert d[k] == h;
    forall j | 0 <= j < k
      ensures d[j] <= threshold
    {
      if j > 0 {
        assert d[j] == envelope[j] - envelope[j - 1];
      }
    }
  }

  /** With a noise window of silent samples the noise level is 0, so the
      microphone locator finds the first non-zero step, whatever the
      constant. */
  lemma MicrophoneFindsCleanStep(signal: seq<real>, k: nat, noiseSamples: int, constant: real)
    requires 1 <= k < |signal|
    requires forall j :: 0 <= j < k ==> signal[j] == 0.0
    requires signal[k] != 0.0
    requires 1 <= noiseSamples <= k
    ensures LocateSignalImpulse(signal, noiseSamples, constant) == Ok(k)
  {
    var d := Diff(signal);
    forall j | 0 <= j < k
      ensures d[j] == 0.0
    {
      if j > 0 {
        assert d[j] == signal[j] - signal[j - 1];
      }
    }
    PeakNoiseAttained(d, noiseSamples);
    assert PeakNoiseLevel(d, noiseSamples).value == 0.0;
    assert d[k] == signal[k];
    forall j | 0 <= j <= k
      ensures Crosses(Magnitude(0.0, constant), d[j]) <==> j == k
    {
      SilentNoiseCrossing(constant, d[j]);
    }
    FirstCrossingUnique(d, Magnitude(0.0, constant), k, LocateSignalImpulse(signal, noiseSamples, constant).value);
  }

  /** A sequence has only one first crossing. */
  lemma FirstCrossingUnique(d: seq<real>, c: Criterion, k: int, k': int)
    requires FirstCrossing(d, c, k) && FirstCrossing(d, c, k')
    ensures k == k'
  {
  }

  /** An impulse in the very first sample is never found by the generator
      locator: its difference is replaced by the leading 0 and the drop back
      to silence is negative. */
  lemma GeneratorMissesImpulseAtZero(envelope: seq<real>, h: real, threshold: real)
    requires |envelope| >= 1 && envelope[0] == h && h > threshold && threshold >= 0.0
    requires forall j :: 1 <= j < |envelope| ==> envelope[j] == 0.0
    ensures LocateGeneratorImpulse(envelope, threshold) == -1
  {
    var d := Diff(envelope);
    forall j | 0 <= j < |d|
      ensures d[j] <= threshold
    {
      if j > 1 {
        assert d[j] == envelope[j] - envelope[j - 1];
      } else if j == 1 {
        assert d[1] == 0.0 - h;
      }
    }
  }

  // ---------------------------------------------------------------------
  // Initial analysis

  /** The settings the locators read. */
  datatype LocatorSettings = LocatorSettings(
    signalReps: int,
    noiseSamples: int,
    impulseConstant: real,
    impulseThreshold: real)

  /** The located impulse of each channel. */
  datatype ImpulseLocations = ImpulseLocations(microphone: int, generator: int)

  /** Both channels split into segments, and the impulse located in each
      channel's first segment. */
  datatype InitialAnalysisResult = InitialAnalysisResult(
    microphoneSegments: seq<seq<real>>,
    generatorSegments: seq<seq<real>>,
    locations: ImpulseLocations)

  /** Splits both channels into `segments` rows and scans only row 0. An
      empty generator row is an error: scipy's `hilbert` rejects a signal of
      length 0. */
  function AnalyseSegments(microphone: seq<real>, generator: seq<real>, segments: int,
                           settings: LocatorSettings, envelope: seq<real> -> seq<real>): (r: Result<InitialAnalysisResult>)
    ensures r.Ok? <==>
      && segments > 0 && |microphone| % segments == 0 && |generator| % segments == 0
      && LocateSignalImpulse(LeadingBlock(microphone, segments), settings.noiseSamples, settings.impulseConstant).Ok?
      && |generator| > 0
    ensures (&& segments > 0 && |microphone| % segments == 0 && |generator| % segments == 0
             && LocateSignalImpulse(LeadingBlock(microphone, segments), settings.noiseSamples, settings.impulseConstant).Ok?
             && |generator| == 0) ==> r == Err(EmptyEnvelope)
    ensures r.Ok? ==>
      && Reshape(microphone, segments) == Ok(r.value.microphoneSegments)
      && Reshape(generator, segments) == Ok(r.value.generatorSegments)
      && LocateSignalImpulse(LeadingBlock(microphone, segments), settings.noiseSamples, settings.impulseConstant)
         == Ok(r.value.locations.microphone)
      && r.value.locations.generator
         == LocateGeneratorImpulse(envelope(LeadingBlock(generator, segments)), settings.impulseThreshold)
  {
    var micRows := Reshape(microphone, segments);
    var genRows := Reshape(generator, segments);
    if micRows.Err? then Err(micRows.error)
    else if genRows.Err? then Err(genRows.error)
    else
      ReshapeFirstRow(microphone, segments);
      ReshapeFirstRow(generator, segments);
      EmptyRowOfEmpty(|generator|, segments);
      var found := LocateSignalImpulse(micRows.value[0], settings.noiseSamples, settings.impulseConstant);
      if found.Err? then Err(EmptyMaximum)
      else if |genRows.value[0]| == 0 then Err(EmptyEnvelope)
      else
        Ok(InitialAnalysisResult(micRows.value, genRows.value,
          ImpulseLocations(found.value, LocateGeneratorImpulse(envelope(genRows.value[0]), settings.impulseThreshold))))
  }

  /** `_initialAnalysis` with the segment count the generator emits:
      `signal_reps + 1` frames. */
  function InitialAnalysis(microphone: seq<real>, generator: seq<real>,
                           settings: LocatorSettings, envelope: seq<real> -> seq<real>): Result<InitialAnalysisResult>
  {
    AnalyseSegments(microphone, generator, settings.signalReps + 1, settings, envelope)
  }

  /** `_initialAnalysis` as written: `signal_reps` segments. */
  function InitialAnalysisAsWritten(microphone: seq<real>, generator: seq<real>,
                                    settings: LocatorSettings, envelope: seq<real> -> seq<real>): Result<InitialAnalysisResult>
  {
    AnalyseSegments(microphone, generator, settings.signalReps, settings, envelope)
  }

  /** Only the first segment is scanned: recordings that agree on their
      first segment (and have the same lengths) locate the same impulses. */
  lemma OnlyFirstSegmentScanned(mic1: seq<real>, gen1: seq<real>, mic2: seq<real>, gen2: seq<real>,
                                settings: LocatorSettings, envelope: seq<real> -> seq<real>)
    requires settings.signalReps + 1 > 0
    requires |mic1| == |mic2| && |gen1| == |gen2|
    requires LeadingBlock(mic1, settings.signalReps + 1) == LeadingBlock(mic2, settings.signalReps + 1)
    requires LeadingBlock(gen1, settings.signalReps + 1) == LeadingBlock(gen2, settings.signalReps + 1)
    requires InitialAnalysis(mic1, gen1, settings, envelope).Ok?
    ensures InitialAnalysis(mic2, gen2, settings, envelope).Ok?
    ensures InitialAnalysis(mic2, gen2, settings, envelope).value.locations
         == InitialAnalysis(mic1, gen1, settings, envelope).value.locations
  {
    var n := settings.signalReps + 1;
    var r1 := AnalyseSegments(mic1, gen1, n, settings, envelope);
    var r2 := AnalyseSegments(mic2, gen2, n, settings, envelope);
    assert r1.Ok?;
    assert r2.Ok?;
    assert r2.value.locations == r1.value.locations;
  }

  // ---------------------------------------------------------------------
  // Passing the locations on through the settings dictionary

  const InputLocationKey: string := "input impulse location"
  const MicrophoneLocationKey: string := "microphone impulse location"
  const GeneratorLocationKey: string := "generator impulse location"

  /** The keys `_initialAnalysis` writes, as written. */
  function StoreLocationsAsWritten(settings: map<string, int>, locations: ImpulseLocations): map<string, int> {
    settings[InputLocationKey := locations.microphone][GeneratorLocationKey := locations.generator]
  }

  /** The keys the analysis reads. */
  function StoreLocations(settings: map<string, int>, locations: ImpulseLocations): map<string, int> {
    settings[MicrophoneLocationKey := locations.microphone][GeneratorLocationKey := locations.generator]
  }

  /** Reads the two locations the way `_extractSignals` does. */
  function ReadLocations(settings: map<string, int>): (r: Result<ImpulseLocations>)
    ensures r.Ok? <==> MicrophoneLocationKey in settings && GeneratorLocationKey in settings
    ensures r.Ok? ==> r.value == ImpulseLocations(settings[MicrophoneLocationKey], settings[GeneratorLocationKey])
  {
    if MicrophoneLocationKey !in settings then Err(MissingKey(MicrophoneLocationKey))
    else if GeneratorLocationKey !in settings then Err(MissingKey(GeneratorLocationKey))
    else Ok(ImpulseLocations(settings[MicrophoneLocationKey], settings[GeneratorLocationKey]))
  }

  /** As written, the microphone location is stored under a key the
      analysis never reads: starting from settings without that key, the
      analysis cannot find it. */
  lemma AsWrittenLosesMicrophoneLocation(settings: map<string, int>, locations: ImpulseLocations)
    requires MicrophoneLocationKey !in settings
    ensures ReadLocations(StoreLocationsAsWritten(settings, locations)) == Err(MissingKey(MicrophoneLocationKey))
  {
    assert InputLocationKey != MicrophoneLocationKey by {
      assert InputLocationKey[0] != MicrophoneLocationKey[0];
    }
    assert GeneratorLocationKey != MicrophoneLocationKey by {
      assert GeneratorLocationKey[0] != MicrophoneLocationKey[0];
    }
  }

  /** Storing under the key the analysis reads hands it exactly the
      located impulses. */
  lemma LocationsRoundTrip(settings: map<string, int>, locations: ImpulseLocations)
    ensures ReadLocations(StoreLocations(settings, locations)) == Ok(locations)
  {
    assert GeneratorLocationKey != MicrophoneLocationKey by {
      assert GeneratorLocationKey[0] != MicrophoneLocationKey[0];
    }
  }
}

=== FILE: pipeline.dfy ===
/** The measurement chain end to end: `determineAlpha` composed from its
    stages, the absorption coefficient from the lifted impulse response,
    and what happens to a generated signal when it is recorded without
    distortion (an ideal loopback).
 */
module Pipeline {
  import opened Results
  import opened Sequences
  import opened SignalGenerator
  import opened Measurement
  import opened AbsorptionCoefficient

  // ---------------------------------------------------------------------
  // Absorption coefficient

  /** `1 - abs(fft(impulse_response, fft_size)) ** 2`, given the magnitude
      of every spectral bin. */
  function Alpha(magnitude: seq<real>): (alpha: seq<real>)
    ensures |alpha| == |magnitude|
    ensures forall i :: 0 <= i < |magnitude| ==> alpha[i] <= 1.0
  {
    seq(|magnitude|, i requires 0 <= i < |magnitude| => SquareFacts(magnitude[i]); 1.0 - magnitude[i] * magnitude[i])
  }

  lemma SquareFacts(x: real)
    ensures x * x >= 0.0
    ensures x * x == 0.0 <==> x == 0.0
    ensures x * x <= 1.0 <==> -1.0 <= x <= 1.0
  {
    var y := if x < 0.0 then -x else x;
    assert x * x == y * y;
    SquareOfNonNegative(y);
  }

  lemma SquareOfNonNegative(y: real)
    requires y >= 0.0
    ensures y * y >= 0.0
    ensures y * y == 0.0 <==> y == 0.0
    ensures y * y <= 1.0 <==> y <= 1.0
  {
    if y > 1.0 {
      assert y * y > 1.0 * y;
    } else if y > 0.0 {
      assert y * y <= 1.0 * y;
      assert (y * y) / y == y;
    }
  }

  /** A bin absorbs everything exactly when the impulse response has no
      energy there, and the coefficient is a proportion exactly when the
      magnitude is at most one. */
  lemma AlphaRange(magnitude: seq<real>, i: nat)
    requires i < |magnitude|
    ensures Alpha(magnitude)[i] == 1.0 <==> magnitude[i] == 0.0
    ensures 0.0 <= Alpha(magnitude)[i] <==> -1.0 <= magnitude[i] <= 1.0
  {
    SquareFacts(magnitude[i]);
  }

  // ---------------------------------------------------------------------
  // determineAlpha

  /** The analysis settings `determineAlpha` and its stages read; the
      window sample counts are whole numbers of samples. */
  datatype AnalysisSettings = AnalysisSettings(
    extraction: ExtractionSettings,
    windowType: string,
    windowStartSamples: nat,
    windowSamples: int,
    taperSamples: nat)

  /** The numerical routines outside this model. */
  datatype Numerics = Numerics(
    sequences: SequenceSource,                  // MlsDb
    cepstrum: seq<real> -> seq<real>,           // ifft(log(abs(fft(x, fft_size)) ** 2))
    hann: (nat, nat) -> real,                   // hanning(M)[i]
    spectrumMagnitude: seq<real> -> seq<real>)  // abs(fft(h, fft_size))

  /** `hanning(m)`. */
  function HannWindow(numerics: Numerics, m: nat): (w: seq<real>)
    ensures |w| == m
  {
    seq(m, i requires 0 <= i < m => numerics.hann(m, i))
  }

  /** What `determineAlpha` leaves behind: the lifted impulse response and
      the absorption coefficient per bin. */
  datatype Analysis = Analysis(impulseResponse: seq<real>, alpha: seq<real>)

  /** `determineAlpha`: the impulse locations are read from the stored
      settings, then the analysis runs on them. */
  function DetermineAlpha(microphoneSegments: seq<seq<real>>, generatorSegments: seq<seq<real>>,
                          stored: map<string, int>, settings: AnalysisSettings, numerics: Numerics): (r: Result<Analysis>)
    requires Rectangular(microphoneSegments) && Rectangular(generatorSegments)
    ensures ReadLocations(stored).Err? ==> r == Err(ReadLocations(stored).error)
    ensures ReadLocations(stored).Ok? ==>
      r == AnalyseAt(microphoneSegments, generatorSegments, ReadLocations(stored).value, settings, numerics)
  {
    var locations :- ReadLocations(stored);
    AnalyseAt(microphoneSegments, generatorSegments, locations, settings, numerics)
  }

  /** The analysis once the impulse locations are known. The downsampling
      stage leaves both responses as they are
      (src/AbsorptionCoefficient.py:214-215), so it is not a step here. */
  function AnalyseAt(microphoneSegments: seq<seq<real>>, generatorSegments: seq<seq<real>>,
                     locations: ImpulseLocations, settings: AnalysisSettings, numerics: Numerics): (r: Result<Analysis>)
    requires Rectangular(microphoneSegments) && Rectangular(generatorSegments)
    ensures r.Ok? ==> ExtractSignals(microphoneSegments, generatorSegments, locations, settings.extraction).Ok?
    ensures r.Ok? ==> |r.value.impulseResponse| == settings.windowSamples
    ensures r.Ok? ==> |r.value.alpha| == |numerics.spectrumMagnitude(r.value.impulseResponse)|
    ensures r.Ok? ==> forall i :: 0 <= i < |r.value.alpha| ==> r.value.alpha[i] <= 1.0
  {
    var averages :- ExtractSignals(microphoneSegments, generatorSegments, locations, settings.extraction);
    var responses :- DetermineResponses(averages, ParseSignalType(settings.extraction.signalType),
                                        settings.extraction.mlsTaps, numerics.sequences);
    var powerCepstrum :- PowerCepstrum(responses, numerics.cepstrum);
    var window :- LiftWindow(settings.windowType, settings.windowSamples, settings.taperSamples,
                             HannWindow(numerics, 2 * settings.taperSamples));
    var impulse :- Lift(powerCepstrum, settings.windowStartSamples, window);
    Ok(Analysis(impulse, Alpha(numerics.spectrumMagnitude(impulse))))
  }

  /** Responses of identical averages are identical, whatever the branch. */
  lemma IdenticalAveragesIdenticalResponses(averages: Averages, kind: Option<SignalType>, taps: nat, source: SequenceSource)
    requires averages.microphone == averages.generator
    requires DetermineResponses(averages, kind, taps, source).Ok?
    ensures DetermineResponses(averages, kind, taps, source).value.microphone
         == DetermineResponses(averages, kind, taps, source).value.generator
  {
  }

  /** A channel compared with itself shows no reflection: when both
      channels hold the same recordings with the impulse at the same place,
      the power cepstrum vanishes and so does the lifted impulse response. */
  lemma IdenticalChannelsLiftNothing(segments: seq<seq<real>>, stored: map<string, int>,
                                     settings: AnalysisSettings, numerics: Numerics)
    requires Rectangular(segments)
    requires MicrophoneLocationKey in stored && GeneratorLocationKey in stored
    requires stored[MicrophoneLocationKey] == stored[GeneratorLocationKey]
    requires DetermineAlpha(segments, segments, stored, settings, numerics).Ok?
    ensures DetermineAlpha(segments, segments, stored, settings, numerics).value.impulseResponse
         == Zeros(settings.windowSamples)
  {
    var locations := ReadLocations(stored).value;
    var averages := ExtractSignals(segments, segments, locations, settings.extraction).value;
    assert averages.microphone == averages.generator;
    var kind := ParseSignalType(settings.extraction.signalType);
    var taps := settings.extraction.mlsTaps;
    IdenticalAveragesIdenticalResponses(averages, kind, taps, numerics.sequences);
    var responses := DetermineResponses(averages, kind, taps, numerics.sequences).value;
    PowerCepstrumOfIdenticalResponses(responses, numerics.cepstrum);
    var window := LiftWindow(settings.windowType, settings.windowSamples, settings.taperSamples,
                             HannWindow(numerics, 2 * settings.taperSamples)).value;
    var zeros := Zeros(|numerics.cepstrum(responses.microphone)|);
    var impulse := Lift(zeros, settings.windowStartSamples, window).value;
    forall i | 0 <= i < |impulse|
      ensures impulse[i] == 0.0
    {
      assert impulse[i] == zeros[settings.windowStartSamples + i] * window[i];
    }
    assert impulse == Zeros(settings.windowSamples);
  }

  // ---------------------------------------------------------------------
  // Passing the impulse locations on

  /** With the microphone location stored under the key `_initialAnalysis`
      uses, the analysis stops before it starts. */
  lemma AsWrittenKeyStopsAnalysis(microphoneSegments: seq<seq<real>>, generatorSegments: seq<seq<real>>,
                                  stored: map<string, int>, locations: ImpulseLocations,
                                  settings: AnalysisSettings, numerics: Numerics)
    requires Rectangular(microphoneSegments) && Rectangular(generatorSegments)
    requires MicrophoneLocationKey !in stored
    ensures DetermineAlpha(microphoneSegments, generatorSegments, StoreLocationsAsWritten(stored, locations),
                           settings, numerics) == Err(MissingKey(MicrophoneLocationKey))
  {
    AsWrittenLosesMicrophoneLocation(stored, locations);
  }

  /** With the key the analysis reads, the analysis runs on exactly the
      locations the initial analysis stored. */
  lemma StoredLocationsReachAnalysis(microphoneSegments: seq<seq<real>>, generatorSegments: seq<seq<real>>,
                                     stored: map<string, int>, locations: ImpulseLocations,
                                     settings: AnalysisSettings, numerics: Numerics)
    requires Rectangular(microphoneSegments) && Rectangular(generatorSegments)
    ensures DetermineAlpha(microphoneSegments, generatorSegments, StoreLocations(stored, locations), settings, numerics)
         == AnalyseAt(microphoneSegments, generatorSegments, locations, settings, numerics)
  {
    LocationsRoundTrip(stored, locations);
  }

  // ---------------------------------------------------------------------
  // Ideal loopback

  /** Recorded without distortion, the generated signal splits into
      exactly the frames the generator emitted when it is cut into
      `signal_reps + 1` segments. */
  lemma RecordingSplitsIntoFrames(kind: SignalType, settings: GeneratorSettings, src: Collaborators)
    requires settings.signalReps >= 0
    ensures Reshape(Assemble(kind, settings, src), settings.signalReps + 1)
         == Ok(seq(settings.signalReps + 1, _ => Frame(kind, settings, src)))
  {
    assert Frames(settings.signalReps) == settings.signalReps + 1;
    ReshapeRepeat(Frame(kind, settings, src), settings.signalReps + 1);
  }

  /** End to end on an ideal loopback: with padding on, both channels
      split into exactly the emitted frames and both locators report the
      synchronisation impulse at index 1 of the first frame. A loopback
      recording has no silence ahead of the frame, so the noise window is
      the single leading sample (`noise samples == 1`); the envelope is any
      one that is silent at 0 and rises above the threshold at the
      impulse. */
  lemma IdealLoopbackLocatesSyncImpulse(kind: SignalType, settings: GeneratorSettings, src: Collaborators,
                                        locator: LocatorSettings, envelope: seq<real> -> seq<real>)
    requires settings.padSignal == 1 && settings.signalReps >= 0
    requires locator.signalReps == settings.signalReps && locator.noiseSamples == 1
    requires 0.0 <= locator.impulseThreshold
    requires RisesAt(envelope(Frame(kind, settings, src)), 1, locator.impulseThreshold)
    ensures var sig := Assemble(kind, settings, src);
      var frames := seq(settings.signalReps + 1, _ => Frame(kind, settings, src));
      InitialAnalysis(sig, sig, locator, envelope) == Ok(InitialAnalysisResult(frames, frames, ImpulseLocations(1, 1)))
  {
    var sig := Assemble(kind, settings, src);
    var frame := Frame(kind, settings, src);
    var n := settings.signalReps + 1;
    RecordingSplitsIntoFrames(kind, settings, src);
    ReshapeFirstRow(sig, n);
    assert LeadingBlock(sig, n) == frame;
    var e := Excitation(kind, settings, src);
    assert frame == Zeros(0) + PadFrame(e, settings.delaySamples, settings.paddingSamples);
    LocatorsFindPaddedImpulse(e, settings.delaySamples, settings.paddingSamples, 0, 1,
                              locator.impulseConstant, envelope, locator.impulseThreshold);
    AnalyseFrames(sig, seq(n, _ => frame), frame, locator, envelope);
  }

  /** The corrected initial analysis of a loopback recording whose first
      segment is a frame in which both locators find index 1. */
  lemma AnalyseFrames(sig: seq<real>, frames: seq<seq<real>>, frame: seq<real>,
                      locator: LocatorSettings, envelope: seq<real> -> seq<real>)
    requires locator.signalReps >= 0
    requires Reshape(sig, locator.signalReps + 1) == Ok(frames)
    requires LeadingBlock(sig, locator.signalReps + 1) == frame
    requires LocateSignalImpulse(frame, locator.noiseSamples, locator.impulseConstant) == Ok(1)
    requires LocateGeneratorImpulse(envelope(frame), locator.impulseThreshold) == 1
    ensures InitialAnalysis(sig, sig, locator, envelope) == Ok(InitialAnalysisResult(frames, frames, ImpulseLocations(1, 1)))
  {
    var r := AnalyseSegments(sig, sig, locator.signalReps + 1, locator, envelope);
    assert r.Ok?;
    assert r.value.microphoneSegments == frames && r.value.generatorSegments == frames;
    assert r.value.locations == ImpulseLocations(1, 1);
  }

  /** As written, `_initialAnalysis` cuts the recording into `signal_reps`
      segments, so a single-frame measurement (`signal_reps == 0`) always
      fails, whatever was recorded. */
  lemma AsWrittenRejectsSingleFrame(microphone: seq<real>, generator: seq<real>,
                                    locator: LocatorSettings, envelope: seq<real> -> seq<real>)
    requires locator.signalReps == 0
    ensures InitialAnalysisAsWritten(microphone, generator, locator, envelope).Err?
  {
  }

  /** As written, with several frames, a segment is never one frame long:
      `signal_reps` segments cannot hold `signal_reps + 1` non-empty frames
      one apiece. */
  lemma AsWrittenSegmentIsNotAFrame(kind: SignalType, settings: GeneratorSettings, src: Collaborators,
                                    locator: LocatorSettings, envelope: seq<real> -> seq<real>)
    requires settings.signalReps > 0 && locator.signalReps == settings.signalReps
    requires |Frame(kind, settings, src)| > 0
    ensures InitialAnalysisAsWritten(Assemble(kind, settings, src), Assemble(kind, settings, src), locator, envelope).Ok? ==>
      |InitialAnalysisAsWritten(Assemble(kind, settings, src), Assemble(kind, settings, src), locator, envelope)
        .value.microphoneSegments[0]| != |Frame(kind, settings, src)|
  {
    var R := settings.signalReps;
    var P := |Frame(kind, settings, src)|;
    var sig := Assemble(kind, settings, src);
    if InitialAnalysisAsWritten(sig, sig, locator, envelope).Ok? {
      assert |sig| == (R + 1) * P;
      DivExact(|sig|, R);
      assert |sig| == R * (|sig| / R);
    }
  }

  /** `env` is silent up to `k` and rises above `threshold` at `k`. */
  predicate RisesAt(env: seq<real>, k: nat, threshold: real) {
    k < |env| && env[k] > threshold && forall j :: 0 <= j < k ==> env[j] == 0.0
  }

  /** A padded frame recorded after `z` samples of silence has its
      synchronisation impulse at `z + 1`, and both locators find it there:
      the microphone locator for any constant and any noise window that
      lies in the silence ahead of the impulse, the generator locator for
      any envelope that is silent before the impulse and rises above the
      threshold at it. */
  lemma LocatorsFindPaddedImpulse(e: seq<real>, delay: nat, padding: nat, z: nat, noiseSamples: int,
                                  constant: real, envelope: seq<real> -> seq<real>, threshold: real)
    requires 1 <= noiseSamples <= z + 1 && 0.0 <= threshold
    requires RisesAt(envelope(Zeros(z) + PadFrame(e, delay, padding)), z + 1, threshold)
    ensures LocateSignalImpulse(Zeros(z) + PadFrame(e, delay, padding), noiseSamples, constant) == Ok(z + 1)
    ensures LocateGeneratorImpulse(envelope(Zeros(z) + PadFrame(e, delay, padding)), threshold) == z + 1
  {
    var s := Zeros(z) + PadFrame(e, delay, padding);
    assert s[z + 1] == 1.0;
    assert forall j :: 0 <= j < z + 1 ==> s[j] == 0.0;
    MicrophoneFindsCleanStep(s, z + 1, noiseSamples, constant);
    var env := envelope(s);
    GeneratorFindsCleanStep(env, z + 1, env[z + 1], threshold);
  }

  /** The bound on the noise window is tight: once the window reaches the
      synchronisation impulse (and the constant is at least one), the
      microphone locator can no longer answer the impulse. */
  lemma NoiseWindowOverImpulseHidesIt(e: seq<real>, delay: nat, padding: nat, z: nat, noiseSamples: int, constant: real)
    requires noiseSamples >= z + 2 && constant >= 1.0
    ensures LocateSignalImpulse(Zeros(z) + PadFrame(e, delay, padding), noiseSamples, constant) != Ok(z + 1)
  {
    MicrophoneImpulseAfterNoiseWindow(Zeros(z) + PadFrame(e, delay, padding), noiseSamples, constant);
  }

  /** Extraction starts at the impulse location plus the delay, which is
      one sample before the excitation: the extracted stretch of a padded
      frame is one sample of the frame's preamble followed by the
      excitation and the padding. */
  lemma ExtractionStartsOneSampleEarly(e: seq<real>, delay: nat, padding: nat)
    ensures var f := PadFrame(e, delay, padding);
      SliceFrom(f, 1 + delay) == [f[1 + delay]] + e + Zeros(padding)
    ensures PadFrame(e, delay, padding)[1 + delay] == if delay == 0 then 1.0 else 0.0
  {
    var f := PadFrame(e, delay, padding);
    var tail := SliceFrom(f, 1 + delay);
    assert tail == f[1 + delay..];
    forall j | 0 <= j < |tail|
      ensures tail[j] == ([f[1 + delay]] + e + Zeros(padding))[j]
    {
      if 1 <= j < 1 + |e| {
        assert tail[j] == f[2 + delay + (j - 1)] == f[2 + delay .. 2 + delay + |e|][j - 1];
      }
    }
  }
}

=== FILE: results.dfy ===
/** Failure-compatible wrappers for the measurement pipeline.

    Every place where the Python/numpy code would raise (a reshape that does
    not divide, a maximum over an empty slice, an unknown signal or window
    type, mismatched array lengths) is an explicit `Err` here.
 */
module Results {

  /** The error conditions the pipeline can run into. */
  datatype Error =
    | UnknownSignalType(name: string)          // no generator branch matched
    | UnknownWindowType(name: string)          // neither "one sided" nor "two sided"
    | ReshapeMismatch(size: nat, rows: int)    // numpy reshape(a, (rows, -1)) impossible
    | EmptyMaximum                             // max() over an empty noise window
    | EmptyEnvelope                            // scipy hilbert() of an empty signal
    | EmptyAverage                             // average over zero repetitions
    | NonPositiveSequenceReps(reps: int)       // assert(mls_reps > 0)
    | NegativeDimension(n: int)                // ones(n) with n < 0
    | ShapeMismatch(left: nat, right: nat)     // elementwise operation on unequal lengths
    | MissingKey(key: string)                  // settings dictionary lookup failed
    | TransformLength(left: nat, right: nat)   // rfft product of unequal, odd or empty inputs

  datatype Option<+T> = None | Some(value: T)

  datatype Result<+T> = Ok(value: T) | Err(error: Error) {

    predicate IsFailure() {
      Err?
    }

    function PropagateFailure<U>(): Result<U>
      requires Err?
    {
      Err(error)
    }

    function Extract(): T
      requires Ok?
    {
      value
    }
  }
}

=== FILE: sequences.dfy ===
/** The array vocabulary the pipeline is written in: Python slicing,
    numpy `zeros`/`ones`, repetition by concatenation, `reshape(a, (R, -1))`,
    elementwise arithmetic and `average(..., axis=0)`, all over exact reals.
 */
module Sequences {
  import opened Results

  // ---------------------------------------------------------------------
  // Block arithmetic used by every periodic-index argument

  /** An index inside block `m` of width `w` has quotient `m` and remainder
      equal to its offset in the block. */
  lemma BlockIndex(i: int, m: int, w: int)
    requires w > 0
    requires m * w <= i < m * w + w
    ensures i / w == m
    ensures i % w == i - m * w
  {
    var q := i / w;
    assert i == q * w + i % w;
    if q < m {
      MulLe(q + 1, m, w);
      assert false;
    } else if q > m {
      MulLe(m + 1, q, w);
      assert false;
    }
  }

  lemma MulLe(a: int, b: int, w: nat)
    requires a <= b
    ensures a * w <= b * w
  {
    assert b * w - a * w == (b - a) * w;
  }

  /** Equal factors give equal products. */
  lemma MulEqual(n: int, x: int, y: int)
    requires x == y
    ensures n * x == n * y
  {
  }

  /** Block `k` of width `w` lies inside the first `n` blocks. */
  lemma BlockBounds(k: nat, n: nat, w: nat)
    requires k < n
    ensures k * w + w <= n * w
  {
    assert (n - k) * w >= w by {
      assert n - k >= 1;
    }
  }

  // ---------------------------------------------------------------------
  // Constant arrays

  /** `n` copies of `v` (numpy `zeros(n)` for 0.0, `ones(n)` for 1.0). */
  function Fill(n: nat, v: real): (r: seq<real>)
    ensures |r| == n
    ensures forall i :: 0 <= i < n ==> r[i] == v
  {
    seq(n, _ => v)
  }

  function Zeros(n: nat): seq<real> { Fill(n, 0.0) }

  function Ones(n: nat): seq<real> { Fill(n, 1.0) }

  // ---------------------------------------------------------------------
  // Python slicing

  /** Where a Python slice bound `i` lands in a sequence of length `n`:
      negative bounds count from the end, and both ends are clamped. */
  function PyIndex(i: int, n: nat): (r: nat)
    ensures r <= n
    ensures 0 <= i <= n ==> r == i
    ensures i < 0 && n + i >= 0 ==> r == n + i
    ensures n + i < 0 ==> r == 0
    ensures i > n ==> r == n
  {
    if i < 0 then (if n + i < 0 then 0 else n + i)
    else if i > n then n
    else i
  }

  /** Python `s[start:]`. */
  function SliceFrom<T>(s: seq<T>, start: int): seq<T> {
    s[PyIndex(start, |s|)..]
  }

  /** Python `s[lo:hi]`; empty when the clamped bounds cross. */
  function Slice<T>(s: seq<T>, lo: int, hi: int): seq<T> {
    var a := PyIndex(lo, |s|);
    var b := PyIndex(hi, |s|);
    if b <= a then [] else s[a..b]
  }

  // ---------------------------------------------------------------------
  // Repetition and reshaping

  /** `n` back-to-back copies of `s`, built the way the generator builds
      them: by appending one more copy at a time. */
  function Repeat<T>(s: seq<T>, n: nat): (r: seq<T>)
    ensures |r| == n * |s|
  {
    if n == 0 then [] else Repeat(s, n - 1) + s
  }

  /** Sample `i` of a repetition is sample `i mod |s|` of the original. */
  lemma {:induction false} RepeatIndex<T>(s: seq<T>, n: nat)
    ensures forall i :: 0 <= i < |Repeat(s, n)| ==> Repeat(s, n)[i] == s[i % |s|]
  {
    if n > 0 {
      RepeatIndex(s, n - 1);
      var prefix := Repeat(s, n - 1);
      forall i | 0 <= i < n * |s|
        ensures Repeat(s, n)[i] == s[i % |s|]
      {
        if i >= (n - 1) * |s| {
          BlockIndex(i, n - 1, |s|);
        } else {
          assert Repeat(s, n)[i] == prefix[i];
        }
      }
    }
  }

  /** Block `k` of a repetition is the repeated sequence itself. */
  lemma RepeatBlock<T>(s: seq<T>, n: nat, k: nat)
    requires k < n
    ensures k * |s| + |s| <= |Repeat(s, n)|
    ensures Repeat(s, n)[k * |s| .. k * |s| + |s|] == s
  {
    var r := Repeat(s, n);
    BlockBounds(k, n, |s|);
    RepeatIndex(s, n);
    forall i | 0 <= i < |s|
      ensures r[k * |s| .. k * |s| + |s|][i] == s[i]
    {
      BlockIndex(k * |s| + i, k, |s|);
    }
  }

  /** Concatenation of a list of rows, in order. */
  function Flatten<T>(rows: seq<seq<T>>): seq<T> {
    if |rows| == 0 then [] else rows[0] + Flatten(rows[1..])
  }

  /** Cuts `a` into `count` consecutive rows of width `w`. */
  function Chunks<T>(a: seq<T>, w: nat, count: nat): (rows: seq<seq<T>>)
    requires |a| == count * w
    ensures |rows| == count
    ensures forall k :: 0 <= k < count ==> |rows[k]| == w
    ensures Flatten(rows) == a
  {
    if count == 0 then []
    else
      var rest := Chunks(a[w..], w, count - 1);
      assert ([a[..w]] + rest)[1..] == rest;
      [a[..w]] + rest
  }

  /** Row `k` of the chunking is the `k`-th block of width `w`. */
  lemma {:induction false} ChunkRow<T>(a: seq<T>, w: nat, count: nat, k: nat)
    requires |a| == count * w
    requires k < count
    ensures k * w + w <= |a|
    ensures Chunks(a, w, count)[k] == a[k * w .. k * w + w]
  {
    BlockBounds(k, count, w);
    if k > 0 {
      var rest := a[w..];
      MulPred(count, w);
      ChunkRow(rest, w, count - 1, k - 1);
      MulPred(k, w);
      assert Chunks(a, w, count)[k] == Chunks(rest, w, count - 1)[k - 1];
      TailSlice(a, w, (k - 1) * w, w);
    }
  }

  lemma MulPred(n: nat, w: nat)
    requires n > 0
    ensures n * w == (n - 1) * w + w
  {
  }

  lemma TailSlice<T>(a: seq<T>, d: nat, o: nat, len: nat)
    requires d + o + len <= |a|
    ensures a[d..][o .. o + len] == a[d + o .. d + o + len]
  {
  }

  /** numpy `reshape(a, (count, -1))`: `count` equal rows, or an error when
      `count` is not positive or does not divide the length. */
  function Reshape<T>(a: seq<T>, count: int): (r: Result<seq<seq<T>>>)
    ensures r.Ok? <==> count > 0 && |a| % count == 0
    ensures r.Ok? ==> |r.value| == count && Flatten(r.value) == a
    ensures r.Ok? ==> forall k :: 0 <= k < count ==> |r.value[k]| == |a| / count
  {
    if count <= 0 || |a| % count != 0 then Err(ReshapeMismatch(|a|, count))
    else
      DivExact(|a|, count);
      Ok(Chunks(a, |a| / count, count))
  }

  /** Row `k` of a reshape is the `k`-th block of the input. */
  lemma ReshapeRow<T>(a: seq<T>, count: int, k: nat)
    requires Reshape(a, count).Ok? && k < count
    ensures var w := |a| / count;
      k * w + w <= |a| && Reshape(a, count).value[k] == a[k * w .. k * w + w]
  {
    DivExact(|a|, count);
    ChunkRow(a, |a| / count, count, k);
  }

  /** The leading `1/count` of a sequence: the first row a reshape into
      `count` rows would give. */
  function LeadingBlock<T>(a: seq<T>, count: int): (r: seq<T>)
    requires count > 0
    ensures |r| == |a| / count
  {
    DivBound(|a|, count);
    a[..|a| / count]
  }

  lemma DivBound(n: nat, c: int)
    requires c > 0
    ensures 0 <= n / c <= n
  {
    var q := n / c;
    assert n == c * q + n % c;
    if q > n {
      MulLe(1, c, q);
      assert false;
    }
  }

  /** The first row of a reshape is the leading block of the input. */
  lemma ReshapeFirstRow<T>(a: seq<T>, count: int)
    requires Reshape(a, count).Ok?
    ensures Reshape(a, count).value[0] == LeadingBlock(a, count)
  {
    ReshapeRow(a, count, 0);
  }

  lemma DivExact(n: nat, c: int)
    requires c > 0 && n % c == 0
    ensures n == c * (n / c) && n / c >= 0
  {
  }

  /** An exact division yields 0 only for an empty length. */
  lemma EmptyRowOfEmpty(n: nat, c: int)
    requires c > 0 && n % c == 0
    ensures n / c == 0 <==> n == 0
  {
    DivExact(n, c);
  }

  /** Dividing a multiple of `c` by `c` is exact. */
  lemma MultipleDiv(q: nat, c: int)
    requires c > 0
    ensures (c * q) % c == 0 && (c * q) / c == q
  {
    var n := c * q;
    var d := n / c;
    var m := n % c;
    assert n == c * d + m && 0 <= m < c;
    assert c * (q - d) == m;
    MulSign(c, q - d);
  }

  lemma MulSign(c: int, k: int)
    requires c > 0
    ensures k >= 1 ==> c * k >= c
    ensures k <= -1 ==> c * k <= -c
  {
    if k >= 1 {
      assert c * k == c + c * (k - 1);
    } else if k <= -1 {
      assert c * k == -c + c * (k + 1);
    }
  }

  /** Shifting an index by one whole period does not change its remainder. */
  lemma ModShift(j: nat, w: nat)
    requires w > 0
    ensures (w + j) % w == j % w
  {
    var m := j / w;
    assert j == m * w + j % w;
    BlockIndex(j, m, w);
    BlockIndex(w + j, m + 1, w);
  }

  /** Chunking `n` copies of a row at the row's width gives the copies back. */
  lemma {:induction false} ChunksRepeat<T>(row: seq<T>, n: nat)
    ensures Chunks(Repeat(row, n), |row|, n) == seq(n, _ => row)
  {
    if n > 0 {
      var a := Repeat(row, n);
      var w := |row|;
      RepeatIndex(row, n);
      RepeatIndex(row, n - 1);
      assert a[..w] == row by {
        forall j | 0 <= j < w
          ensures a[j] == row[j]
        {
          BlockIndex(j, 0, w);
        }
      }
      assert a[w..] == Repeat(row, n - 1) by {
        forall j | 0 <= j < (n - 1) * w
          ensures a[w..][j] == Repeat(row, n - 1)[j]
        {
          ModShift(j, w);
        }
      }
      ChunksRepeat(row, n - 1);
    }
  }

  /** Reshaping `count` copies of a row gives back exactly those copies. */
  lemma ReshapeRepeat<T>(row: seq<T>, count: nat)
    requires count > 0
    ensures Reshape(Repeat(row, count), count) == Ok(seq(count, _ => row))
  {
    var a := Repeat(row, count);
    BlockIndex(|a|, |row|, count);
    ChunksRepeat(row, count);
  }

  /** Skipping the first copy and keeping `m` more gives `m` copies. */
  lemma RepeatSkipFirst<T>(s: seq<T>, n: nat, m: nat)
    requires |s| > 0 && m + 1 <= n
    ensures |s| + m * |s| <= |Repeat(s, n)|
    ensures Repeat(s, n)[|s| .. |s| + m * |s|] == Repeat(s, m)
  {
    var w := |s|;
    BlockBounds(m, n, w);
    RepeatIndex(s, n);
    RepeatIndex(s, m);
    forall j | 0 <= j < m * w
      ensures Repeat(s, n)[w .. w + m * w][j] == Repeat(s, m)[j]
    {
      ModShift(j, w);
    }
  }

  // ---------------------------------------------------------------------
  // Elementwise arithmetic

  /** Every sample multiplied by `c`. */
  function Scale(s: seq<real>, c: real): (r: seq<real>)
    ensures |r| == |s|
    ensures forall i :: 0 <= i < |s| ==> r[i] == c * s[i]
  {
    seq(|s|, i requires 0 <= i < |s| => c * s[i])
  }

  /** Elementwise difference of equal-length arrays. */
  function Sub(a: seq<real>, b: seq<real>): (r: seq<real>)
    requires |a| == |b|
    ensures |r| == |a|
    ensures forall i :: 0 <= i < |a| ==> r[i] == a[i] - b[i]
  {
    seq(|a|, i requires 0 <= i < |a| => a[i] - b[i])
  }

  /** numpy `a - b`: an error when the lengths differ. */
  function SubChecked(a: seq<real>, b: seq<real>): (r: Result<seq<real>>)
    ensures r.Ok? <==> |a| == |b|
    ensures r.Ok? ==> r.value == Sub(a, b)
  {
    if |a| != |b| then Err(ShapeMismatch(|a|, |b|)) else Ok(Sub(a, b))
  }

  /** Python `s[-1::-1]`. */
  function Reverse<T>(s: seq<T>): (r: seq<T>)
    ensures |r| == |s|
    ensures forall i :: 0 <= i < |s| ==> r[i] == s[|s| - 1 - i]
  {
    seq(|s|, i requires 0 <= i < |s| => s[|s| - 1 - i])
  }

  // ---------------------------------------------------------------------
  // Averaging

  function Sum(xs: seq<real>): real {
    if |xs| == 0 then 0.0 else xs[0] + Sum(xs[1..])
  }

  function Mean(xs: seq<real>): real
    requires |xs| > 0
  {
    Sum(xs) / (|xs| as real)
  }

  /** The sum of `n` copies of `v` is `n * v`. */
  lemma {:induction false} SumConstant(xs: seq<real>, v: real)
    requires forall i :: 0 <= i < |xs| ==> xs[i] == v
    ensures Sum(xs) == (|xs| as real) * v
  {
    if |xs| > 0 {
      SumConstant(xs[1..], v);
    }
  }

  /** The mean of a non-empty run of equal values is that value. */
  lemma MeanConstant(xs: seq<real>, v: real)
    requires |xs| > 0
    requires forall i :: 0 <= i < |xs| ==> xs[i] == v
    ensures Mean(xs) == v
  {
    SumConstant(xs, v);
  }

  predicate Rectangular(rows: seq<seq<real>>) {
    forall k :: 0 <= k < |rows| ==> |rows[k]| == |rows[0]|
  }

  /** Entry `j` of every row. */
  function Column(rows: seq<seq<real>>, j: nat): seq<real>
    requires forall k :: 0 <= k < |rows| ==> j < |rows[k]|
  {
    seq(|rows|, k requires 0 <= k < |rows| => rows[k][j])
  }

  /** Sample `j` of every one of the `count` equal blocks of `a`:
      `a[k * w + j]` for each block `k`, where `w == |a| / count`. */
  function BlockColumn(a: seq<real>, count: int, j: nat): (r: seq<real>)
    requires count > 0 && |a| % count == 0 && j < |a| / count
    ensures |r| == count
  {
    var w := |a| / count;
    DivExact(|a|, count);
    seq(count, k requires 0 <= k < count => BlockBounds(k, count, w); a[k * w + j])
  }

  /** Column `j` of a reshape gathers sample `j` of every block. */
  lemma ReshapeColumn(a: seq<real>, count: int, j: nat)
    requires count > 0 && |a| % count == 0 && j < |a| / count
    ensures Reshape(a, count).Ok? && Rectangular(Reshape(a, count).value)
    ensures Column(Reshape(a, count).value, j) == BlockColumn(a, count, j)
  {
    var rows := Reshape(a, count).value;
    var w := |a| / count;
    forall k | 0 <= k < count
      ensures rows[k][j] == BlockColumn(a, count, j)[k]
    {
      ReshapeRow(a, count, k);
    }
  }

  /** numpy `average(rows, axis=0)`. With no rows numpy yields `nan` and a
      warning rather than a value; the model reports that case as an error. */
  function MeanRows(rows: seq<seq<real>>): (r: Result<seq<real>>)
    requires Rectangular(rows)
    ensures r.Ok? <==> |rows| > 0
    ensures r.Ok? ==> |r.value| == |rows[0]|
    ensures r.Ok? ==> forall j :: 0 <= j < |rows[0]| ==> r.value[j] == Mean(Column(rows, j))
  {
    if |rows| == 0 then Err(EmptyAverage)
    else Ok(seq(|rows[0]|, j requires 0 <= j < |rows[0]| => Mean(Column(rows, j))))
  }

  /** Averaging any positive number of identical rows returns that row. */
  lemma MeanRowsIdentical(rows: seq<seq<real>>, row: seq<real>)
    requires |rows| > 0
    requires forall k :: 0 <= k < |rows| ==> rows[k] == row
    ensures MeanRows(rows) == Ok(row)
  {
    var r := MeanRows(rows);
    forall j | 0 <= j < |row|
      ensures r.value[j] == row[j]
    {
      MeanConstant(Column(rows, j), row[j]);
    }
    assert r.value == row;
  }
}

=== FILE: signal_generator.dfy ===
/** Excitation assembly (src/SignalGenerator.py).

    The generator picks a base signal by its (case-insensitive) type name,
    optionally filters it, scales it by a fixed gain, lays it out in a
    padding frame `[0, 1, silence, signal, silence]` whose sample 1 is the
    synchronisation impulse, and repeats the whole frame to improve the
    signal-to-noise ratio. The maximum-length sequence itself, the swept-sine
    samples and the Butterworth filters come from code outside this model and
    enter as `Collaborators`.
 */
module SignalGenerator {
  import opened Results
  import opened Sequences

  // ---------------------------------------------------------------------
  // Signal types

  datatype SignalType =
    | SweptSine
    | LowPassSweptSine
    | MaximumLengthSequence
    | InverseRepeatSequence

  /** The lower-case name each type is selected by. */
  function TypeName(t: SignalType): string {
    match t
    case SweptSine => "swept sine"
    case LowPassSweptSine => "low pass swept sine"
    case MaximumLengthSequence => "maximum length sequence"
    case InverseRepeatSequence => "inverse repeat sequence"
  }

  /** ASCII lower-casing of one character (Python `str.lower` on ASCII). */
  function LowerChar(c: char): char {
    if 'A' <= c <= 'Z' then (c as int + 32) as char else c
  }

  function Lower(s: string): (r: string)
    ensures |r| == |s|
    ensures forall i :: 0 <= i < |s| ==> r[i] == LowerChar(s[i])
  {
    seq(|s|, i requires 0 <= i < |s| => LowerChar(s[i]))
  }

  /** Selects the generator branch whose name equals the lower-cased
      setting; `None` when no branch matches. */
  function ParseSignalType(name: string): (t: Option<SignalType>)
    ensures t.Some? ==> Lower(name) == TypeName(t.value)
    ensures t.None? ==> forall k: SignalType :: Lower(name) != TypeName(k)
  {
    var n := Lower(name);
    if n == TypeName(SweptSine) then Some(SweptSine)
    else if n == TypeName(LowPassSweptSine) then Some(LowPassSweptSine)
    else if n == TypeName(MaximumLengthSequence) then Some(MaximumLengthSequence)
    else if n == TypeName(InverseRepeatSequence) then Some(InverseRepeatSequence)
    else None
  }

  /** Every type is selected by its own name. */
  lemma ParseTypeName(t: SignalType)
    ensures ParseSignalType(TypeName(t)) == Some(t)
  {
    match t {
      case SweptSine =>
        LowerOfLowerCase(TypeName(SweptSine));
      case LowPassSweptSine =>
        LowerOfLowerCase(TypeName(LowPassSweptSine));
        assert TypeName(SweptSine) != TypeName(LowPassSweptSine);
      case MaximumLengthSequence =>
        LowerOfLowerCase(TypeName(MaximumLengthSequence));
        assert TypeName(SweptSine)[0] != TypeName(MaximumLengthSequence)[0];
      case InverseRepeatSequence =>
        LowerOfLowerCase(TypeName(InverseRepeatSequence));
        assert TypeName(SweptSine)[0] != TypeName(InverseRepeatSequence)[0];
        assert TypeName(MaximumLengthSequence)[0] != TypeName(InverseRepeatSequence)[0];
    }
  }

  /** Lower-casing leaves a string without upper-case letters unchanged. */
  lemma LowerOfLowerCase(s: string)
    requires forall i :: 0 <= i < |s| ==> !('A' <= s[i] <= 'Z')
    ensures Lower(s) == s
  {
  }

  /** Matching ignores case: a name and its lower-cased form select the
      same branch. */
  lemma ParseIgnoresCase(name: string)
    ensures ParseSignalType(Lower(name)) == ParseSignalType(name)
  {
    assert Lower(Lower(name)) == Lower(name);
  }

  // ---------------------------------------------------------------------
  // Maximum-length sequences

  /** 2^n. */
  function Pow2(n: nat): (r: nat)
    ensures r >= 1
  {
    if n == 0 then 1 else 2 * Pow2(n - 1)
  }

  /** Length of the maximum-length sequence for `taps`: 2^taps - 1. */
  function MlsLength(taps: nat): nat {
    Pow2(taps) - 1
  }

  /** For at least one tap the sequence length is odd. */
  lemma MlsLengthOdd(taps: nat)
    requires taps >= 1
    ensures MlsLength(taps) % 2 == 1
  {
  }

  predicate IsBinary(m: seq<int>) {
    forall i :: 0 <= i < |m| ==> m[i] == 0 || m[i] == 1
  }

  predicate IsBipolar(s: seq<real>) {
    forall i :: 0 <= i < |s| ==> s[i] == 1.0 || s[i] == -1.0
  }

  /** The map `v -> -2v + 1`, taking a 0/1 sequence to +1/-1. */
  function Bipolar(mls: seq<int>): (r: seq<real>)
    ensures |r| == |mls|
    ensures forall i :: 0 <= i < |mls| && mls[i] == 0 ==> r[i] == 1.0
    ensures forall i :: 0 <= i < |mls| && mls[i] == 1 ==> r[i] == -1.0
    ensures IsBinary(mls) ==> IsBipolar(r)
  {
    seq(|mls|, i requires 0 <= i < |mls| => (-2 * mls[i] + 1) as real)
  }

  /** The inverse map `b -> (1 - b) / 2`. */
  function Unipolar(b: seq<real>): seq<real> {
    seq(|b|, i requires 0 <= i < |b| => (1.0 - b[i]) / 2.0)
  }

  /** Mapping to bipolar form and back recovers the original sequence. */
  lemma BipolarRoundTrip(mls: seq<int>)
    ensures |Unipolar(Bipolar(mls))| == |mls|
    ensures forall i :: 0 <= i < |mls| ==> Unipolar(Bipolar(mls))[i] == mls[i] as real
  {
  }

  /** Number of sequence copies `generateMls`/`generateIRS` emit: the
      initial copy plus one per iteration of `range(reps + 1)`. */
  function SequenceCopies(reps: int): nat {
    if reps + 1 > 0 then reps + 2 else 1
  }

  /** `generateMls`: the bipolar sequence, repeated. */
  function MlsSignal(mls: seq<int>, reps: int): (r: seq<real>)
    ensures reps >= -1 ==> |r| == (reps + 2) * |mls|
    ensures reps < -1 ==> |r| == |mls|
  {
    Repeat(Bipolar(mls), SequenceCopies(reps))
  }

  /** The MLS signal is periodic with the sequence length, and a 0/1
      sequence gives a ±1 signal. */
  lemma MlsSignalPeriodic(mls: seq<int>, reps: int)
    ensures forall i :: 0 <= i < |MlsSignal(mls, reps)| ==> MlsSignal(mls, reps)[i] == Bipolar(mls)[i % |mls|]
    ensures IsBinary(mls) ==> IsBipolar(MlsSignal(mls, reps))
  {
    RepeatIndex(Bipolar(mls), SequenceCopies(reps));
  }

  /** The inverse-repeat sequence: the bipolar sequence written twice,
      with every odd-indexed sample of the doubled sequence negated. */
  function InverseRepeat(s: seq<real>): (irs: seq<real>)
    ensures |irs| == 2 * |s|
    ensures forall i :: 0 <= i < |irs| && i % 2 == 0 ==> irs[i] == s[i % |s|]
    ensures forall i :: 0 <= i < |irs| && i % 2 == 1 ==> irs[i] == -s[i % |s|]
  {
    var doubled := s + s;
    assert forall i :: 0 <= i < |doubled| ==> doubled[i] == s[i % |s|] by {
      forall i | 0 <= i < |doubled|
        ensures doubled[i] == s[i % |s|]
      {
        if i < |s| {
          BlockIndex(i, 0, |s|);
        } else {
          BlockIndex(i, 1, |s|);
        }
      }
    }
    seq(|doubled|, i requires 0 <= i < |doubled| => if i % 2 == 0 then doubled[i] else -doubled[i])
  }

  /** For a sequence of odd length (every maximum-length sequence) the
      second half of the inverse-repeat sequence is the negation of its
      first half. */
  lemma InverseRepeatHalves(s: seq<real>)
    requires |s| % 2 == 1
    ensures forall j :: 0 <= j < |s| ==> InverseRepeat(s)[|s| + j] == -InverseRepeat(s)[j]
  {
    var irs := InverseRepeat(s);
    var n := |s|;
    forall j | 0 <= j < n
      ensures irs[n + j] == -irs[j]
    {
      BlockIndex(j, 0, n);
      BlockIndex(n + j, 1, n);
      assert (n + j) % 2 != j % 2;
    }
  }

  /** The inverse-repeat sequence built from a maximum-length sequence of
      the database's length has negated halves. */
  lemma MlsInverseRepeatHalves(mls: seq<int>, taps: nat)
    requires taps >= 1 && |mls| == MlsLength(taps)
    ensures forall j :: 0 <= j < |mls| ==>
      InverseRepeat(Bipolar(mls))[|mls| + j] == -InverseRepeat(Bipolar(mls))[j]
  {
    MlsLengthOdd(taps);
    InverseRepeatHalves(Bipolar(mls));
  }

  /** `generateIRS`: the inverse-repeat sequence, repeated. */
  function IrsSignal(mls: seq<int>, reps: int): (r: seq<real>)
    ensures reps >= -1 ==> |r| == (reps + 2) * (2 * |mls|)
    ensures reps < -1 ==> |r| == 2 * |mls|
  {
    Repeat(InverseRepeat(Bipolar(mls)), SequenceCopies(reps))
  }

  /** The IRS signal is periodic with twice the sequence length. */
  lemma IrsSignalPeriodic(mls: seq<int>, reps: int)
    ensures forall i :: 0 <= i < |IrsSignal(mls, reps)| ==>
      IrsSignal(mls, reps)[i] == InverseRepeat(Bipolar(mls))[i % (2 * |mls|)]
  {
    RepeatIndex(InverseRepeat(Bipolar(mls)), SequenceCopies(reps));
  }

  // ---------------------------------------------------------------------
  // Padding, gain and repetition

  /** The fixed gain applied to every sample before padding. */
  const Gain: real := 0.5

  /** `padSignal`: `[0, 1] ++ zeros(delay) ++ s ++ zeros(padding)`. */
  function PadFrame(s: seq<real>, delay: nat, padding: nat): (r: seq<real>)
    ensures |r| == 2 + delay + |s| + padding
    ensures r[1] == 1.0
    ensures forall i :: 0 <= i < 2 + delay && i != 1 ==> r[i] == 0.0
    ensures r[2 + delay .. 2 + delay + |s|] == s
    ensures forall i :: 2 + delay + |s| <= i < |r| ==> r[i] == 0.0
  {
    var r := [0.0, 1.0] + Zeros(delay) + s + Zeros(padding);
    assert r[2 + delay .. 2 + delay + |s|] == s;
    r
  }

  /** The integer-valued settings the generator reads; the sample counts
      are `int(seconds * sample_rate)` as computed by the caller. */
  datatype GeneratorSettings = GeneratorSettings(
    signalType: string,
    lpfEnabled: int,
    hpfEnabled: int,
    padSignal: int,
    signalReps: int,
    mlsReps: int,
    delaySamples: nat,
    paddingSamples: nat)

  /** What the generator obtains from code outside this model. */
  datatype Collaborators = Collaborators(
    mls: seq<int>,                      // MlsDb.getMls(taps)
    sweptSine: seq<real>,               // generateSweptSine
    lowPassSweptSine: seq<real>,        // generateLowPassSweptSine
    lowPass: seq<real> -> seq<real>,    // filterSignal(lpf cutoff, lpf order, "low")
    highPass: seq<real> -> seq<real>)   // filterSignal(hpf cutoff, hpf order, "high")

  function BaseSignal(kind: SignalType, settings: GeneratorSettings, src: Collaborators): seq<real> {
    match kind
    case SweptSine => src.sweptSine
    case LowPassSweptSine => src.lowPassSweptSine
    case MaximumLengthSequence => MlsSignal(src.mls, settings.mlsReps)
    case InverseRepeatSequence => IrsSignal(src.mls, settings.mlsReps)
  }

  /** The base signal after the optional filters, before the gain. */
  function Filtered(kind: SignalType, settings: GeneratorSettings, src: Collaborators): seq<real> {
    var raw := BaseSignal(kind, settings, src);
    var low := if settings.lpfEnabled == 1 then src.lowPass(raw) else raw;
    if settings.hpfEnabled == 1 then src.highPass(low) else low
  }

  /** The frame's payload: the filtered signal times the gain. */
  function Excitation(kind: SignalType, settings: GeneratorSettings, src: Collaborators): seq<real> {
    Scale(Filtered(kind, settings, src), Gain)
  }

  /** The gain halves every sample of the filtered signal and changes
      nothing else. */
  lemma GainHalvesEverySample(kind: SignalType, settings: GeneratorSettings, src: Collaborators)
    ensures |Excitation(kind, settings, src)| == |Filtered(kind, settings, src)|
    ensures forall i :: 0 <= i < |Filtered(kind, settings, src)| ==>
      Excitation(kind, settings, src)[i] == 0.5 * Filtered(kind, settings, src)[i]
  {
  }

  /** One frame: the excitation, padded when padding is switched on. */
  function Frame(kind: SignalType, settings: GeneratorSettings, src: Collaborators): seq<real> {
    var e := Excitation(kind, settings, src);
    if settings.padSignal == 1 then PadFrame(e, settings.delaySamples, settings.paddingSamples) else e
  }

  /** Number of frames emitted: the first plus one per iteration of
      `range(signal_reps)`. */
  function Frames(signalReps: int): nat {
    if signalReps > 0 then signalReps + 1 else 1
  }

  /** The signal for a recognised type: `Frames(signal_reps)` copies of
      the frame, back to back. */
  function Assemble(kind: SignalType, settings: GeneratorSettings, src: Collaborators): (r: seq<real>)
    ensures |r| == Frames(settings.signalReps) * |Frame(kind, settings, src)|
  {
    Repeat(Frame(kind, settings, src), Frames(settings.signalReps))
  }

  /** `generateSignal`: the type is matched case-insensitively, and an
      unrecognised type produces no signal. */
  function GenerateSignal(settings: GeneratorSettings, src: Collaborators): (r: Result<seq<real>>)
    ensures r.Ok? <==> ParseSignalType(settings.signalType).Some?
    ensures r.Err? ==> r.error == UnknownSignalType(settings.signalType)
    ensures r.Ok? ==> r.value == Assemble(ParseSignalType(settings.signalType).value, settings, src)
  {
    match ParseSignalType(settings.signalType)
    case None => Err(UnknownSignalType(settings.signalType))
    case Some(kind) => Ok(Assemble(kind, settings, src))
  }

  /** `sig` holds, from offset `o`, the padded frame of excitation `e`:
      a zero, the unit synchronisation impulse at `o + 1`, `delay` samples
      of silence, `e` itself, then `padding` samples of silence. */
  predicate PaddedFrameAt(sig: seq<real>, o: int, e: seq<real>, delay: nat, padding: nat) {
    var P := 2 + delay + |e| + padding;
    && 0 <= o
    && o + P <= |sig|
    && sig[o .. o + P] == PadFrame(e, delay, padding)
    && sig[o] == 0.0
    && sig[o + 1] == 1.0
    && sig[o + 2 + delay .. o + 2 + delay + |e|] == e
  }

  /** With padding on, the assembled signal is `Frames(signal_reps)` frames
      of length `P`, and frame `k` holds the padded, gained excitation with
      its synchronisation impulse at `k * P + 1`. */
  lemma SyncImpulseInEveryFrame(kind: SignalType, settings: GeneratorSettings, src: Collaborators, k: nat)
    requires settings.padSignal == 1
    requires k < Frames(settings.signalReps)
    ensures var e := Excitation(kind, settings, src);
      var sig := Assemble(kind, settings, src);
      var P := 2 + settings.delaySamples + |e| + settings.paddingSamples;
      |sig| == Frames(settings.signalReps) * P &&
      PaddedFrameAt(sig, k * P, e, settings.delaySamples, settings.paddingSamples)
  {
    FrameAt(Excitation(kind, settings, src), settings.delaySamples, settings.paddingSamples,
            Frames(settings.signalReps), k);
    PaddedAssembly(kind, settings, src);
  }

  /** With padding on, the signal is the padded frame repeated. */
  lemma PaddedAssembly(kind: SignalType, settings: GeneratorSettings, src: Collaborators)
    requires settings.padSignal == 1
    ensures Assemble(kind, settings, src)
         == Repeat(PadFrame(Excitation(kind, settings, src), settings.delaySamples, settings.paddingSamples),
                   Frames(settings.signalReps))
  {
  }

  /** Layout of block `k` of a repetition of a padded frame. */
  lemma FrameAt(e: seq<real>, d: nat, p: nat, n: nat, k: nat)
    requires k < n
    ensures var P := 2 + d + |e| + p;
      |Repeat(PadFrame(e, d, p), n)| == n * P &&
      PaddedFrameAt(Repeat(PadFrame(e, d, p), n), k * P, e, d, p)
  {
    assert |Repeat(PadFrame(e, d, p), n)| == n * (2 + d + |e| + p) by {
      MulEqual(n, |PadFrame(e, d, p)|, 2 + d + |e| + p);
    }
    assert k * (2 + d + |e| + p) + |PadFrame(e, d, p)| <= |Repeat(PadFrame(e, d, p), n)|
        && Repeat(PadFrame(e, d, p), n)[k * (2 + d + |e| + p) .. k * (2 + d + |e| + p) + |PadFrame(e, d, p)|]
           == PadFrame(e, d, p) by {
      MulEqual(k, |PadFrame(e, d, p)|, 2 + d + |e| + p);
      RepeatBlock(PadFrame(e, d, p), n, k);
    }
    PaddedFrameFromBlock(Repeat(PadFrame(e, d, p), n), k * (2 + d + |e| + p), e, d, p);
  }

  /** A copy of the padded frame at offset `o` has the padded layout there. */
  lemma PaddedFrameFromBlock(sig: seq<real>, o: nat, e: seq<real>, d: nat, p: nat)
    requires o + |PadFrame(e, d, p)| <= |sig|
    requires sig[o .. o + |PadFrame(e, d, p)|] == PadFrame(e, d, p)
    ensures PaddedFrameAt(sig, o, e, d, p)
  {
    var f := PadFrame(e, d, p);
    assert sig[o] == f[0] && sig[o + 1] == f[1];
    forall j | 0 <= j < |e|
      ensures sig[o + 2 + d .. o + 2 + d + |e|][j] == e[j]
    {
      assert sig[o + 2 + d + j] == f[2 + d + j];
      assert f[2 + d .. 2 + d + |e|][j] == f[2 + d + j];
    }
  }

  /** Unfiltered MLS excitation: the frame's payload is the bipolar
      sequence at half amplitude, repeated with period `|mls|`. */
  lemma UnfilteredMlsPayload(settings: GeneratorSettings, src: Collaborators)
    requires settings.lpfEnabled != 1 && settings.hpfEnabled != 1
    requires IsBinary(src.mls)
    ensures var e := Excitation(MaximumLengthSequence, settings, src);
      |e| == SequenceCopies(settings.mlsReps) * |src.mls| &&
      forall j :: 0 <= j < |e| ==>
        e[j] == Gain * Bipolar(src.mls)[j % |src.mls|] && (e[j] == 0.5 || e[j] == -0.5)
  {
    MlsSignalPeriodic(src.mls, settings.mlsReps);
  }
}
